=== FILE: README.md ===
# OrangeHRM UI test harness: the pure core, in Dafny

This project models the deterministic logic inside a browser-driven test
harness for the OrangeHRM demo application. It leaves out the browser. What
remains is the following:

- **TestUtils** (`testutils.dfy`): the fixture generators, the three format
  validators, the file-name sanitiser and the retry-with-exponential-backoff
  loop. Each `Math.random()` draw becomes a parameter in `[0, k)`, the range
  `Math.floor(Math.random() * k)` produces.
- **TestData** (`testdata.dfy`): the configuration constants. These are the
  credentials, the valid and invalid fixtures, the timeouts and the
  `SELECTORS` registry, which maps each screen and logical field to a
  locator string.
- **PageModel** (`pagemodel.dfy`): the page as the page objects see it.
  - Input values are kept per locator string, because `fill` and
    `inputValue` act on the first element a locator matches. Two logical
    fields with the same locator therefore share one slot.
  - Read-only elements are kept as the texts of every element a locator
    matches.
  - A locator that matches nothing is a timeout.
- **EmergencyContactsPage** (`emergencycontacts.dfy`):
  - the positional filler that writes the last five generic inputs;
  - the two row scans over the contact table, the lookup by trimmed
    (name, home phone) and the delete of the first matching row that has a
    trash button;
  - the readers that return a sentinel on timeout.
- **ContactDetailsPage** (`contactdetails.dfy`):
  - address and phone writes and reads through the registry's locators;
  - the page object's own copies of the phone and zip validators;
  - its message readers.
- **JsText** (`jstext.dfy`) and **Wrappers** (`wrappers.dfy`) hold support
  code:
  - the JavaScript whitespace set and `trim`;
  - `String(n)` for non-negative integers, with its parser;
  - ASCII upper-casing;
  - `Option`, standing for `undefined`;
  - `Result`, standing for a promise that can reject.

Regular expressions are modelled by what they accept, written as "the string
splits as ...". Each validator has a characterisation lemma stating its
language in plain terms. Every generator is proved to produce what its
validator accepts.

## Model

| member | source | states |
|---|---|---|
| TestUtils.AlphabetLetters | utils/testUtils.js:8 | the generator's alphabet has 52 characters, `a`..`z` then `A`..`Z` |
| TestUtils.RandomString | utils/testUtils.js:7-14 | the output has one character per draw, every character is an ASCII letter, and a negative length gives the empty string |
| TestUtils.RandomStringCoversLetters | utils/testUtils.js:7-14 | every letter string of length n is produced by some draws, so the generator covers its whole range |
| TestUtils.RandomEmail | utils/testUtils.js:20-23 | the generated `test.<8 letters>@example.com` is 25 characters long and `isValidEmail` accepts it |
| TestUtils.IsValidEmail | utils/testUtils.js:138-141 | the `^[^\s@]+@[^\s@]+\.[^\s@]+$` test as a predicate: some split into three non-empty runs without whitespace or `@`, joined by `@` and `.`, so an accepted address has at least 5 characters and neither starts nor ends with `@`; EmailCharacterization states its language exactly |
| TestUtils.EmailCharacterization | utils/testUtils.js:138-141 | `isValidEmail` holds iff the string has no whitespace, exactly one `@` not at position 0, and a `.` strictly inside the part after the `@` |
| TestUtils.RandomPhone | utils/testUtils.js:29-34 | with draws in range, the output has the shape `+1-DDD-DDD-DDDD`, has exactly 11 digits and is accepted by `isValidPhone` |
| TestUtils.NanpPhoneIsValid | utils/testUtils.js:148-152 | every string of the shape `+1-DDD-DDD-DDDD` has 11 digits and passes `isValidPhone` |
| TestUtils.StripPhoneSymbols | utils/testUtils.js:150 | the result is no longer than the input and holds no `+ - ( )` or whitespace character; on a string of phone characters it is all digits and its length is the digit count (PhoneDigitsOnly) |
| TestUtils.IsValidPhone | utils/testUtils.js:148-152 | the character-class test and the stripped length >= 10 as a predicate, so an accepted number has at least 10 characters; PhoneCharacterization states its language exactly |
| TestUtils.PhoneCharacterization | utils/testUtils.js:148-152 | `isValidPhone` holds iff the string is non-empty, contains only digits, whitespace and `+ - ( )`, and has at least 10 digits |
| TestUtils.RandomZip | utils/testUtils.js:40-42 | with the draw in range, the output is 5 digits, is accepted by `isValidZip`, and parses back to draw + 10000 |
| TestUtils.IsValidZip | utils/testUtils.js:159-162 | the `^\d{5}(-\d{4})?$` test as a predicate: some split into five digits followed by nothing or by `-` and four digits, so an accepted code has 5 or 10 characters; ZipCharacterization states its language exactly |
| TestUtils.ZipCharacterization | utils/testUtils.js:159-162 | `isValidZip` holds iff the string is 5 digits, or 5 digits, a `-`, then 4 digits |
| TestUtils.CleanTextForFilename | utils/testUtils.js:169-171 | the output keeps the input's length, contains only `[a-zA-Z0-9_-]`, keeps safe characters, and turns every other character into `_` |
| TestUtils.CleanFixpoint | utils/testUtils.js:169-171 | sanitising leaves a string unchanged iff it is already a safe file name |
| TestUtils.CleanIdempotent | utils/testUtils.js:169-171 | sanitising twice equals sanitising once |
| TestUtils.RetryWithBackoff | utils/testUtils.js:180-193 | `fn` is called at most `maxRetries` times, and never when `maxRetries <= 0` (the result is then `undefined`); the call returns a value iff one of the first `maxRetries` outcomes succeeds, and it is the first success; when all attempts fail it rethrows the `maxRetries`-th error; the k-th back-off is `baseDelay * 2^k`, one fewer than the calls |
| TestUtils.TotalBackoff | utils/testUtils.js:189 | the delays requested from `setTimeout` over n back-offs total baseDelay * (2^n - 1) |
| TestUtils.SleptDelay | utils/testUtils.js:190 | Node's `setTimeout` waits the requested delay iff it lies in [1, 2^31 - 1] ms, and 1 ms otherwise |
| TestUtils.TotalSleep | utils/testUtils.js:189-190 | with baseDelay >= 1 and the last back-off within 2^31 - 1 ms, every requested delay is slept as requested and the time slept totals baseDelay * (2^n - 1) |
| TestUtils.DefaultBackoffClamped | utils/testUtils.js:180-190 | with the default base delay of 1000 ms, back-offs up to the 22nd fit in `setTimeout`'s range and the 23rd is cut to 1 ms |
| TestUtils.GenerateTestData | utils/testUtils.js:199-223 | with every draw in range, each generated field has its promised shape: letter names of lengths 6 and 8, a valid e-mail, a street `<1..9999> <5 letters> Street`, a 7-letter city, a two-letter upper-case state, a valid zip, four valid phones, a contact name `<6 letters> <7 letters>`, and a relationship from the four fixed values |
| JsText.Trim | pages/EmergencyContactsPage.js:110-113 | `trim()` returns a string with no JavaScript whitespace at either end, and no longer than its input |
| JsText.TrimPadded | pages/EmergencyContactsPage.js:110-113 | trimming whitespace padding off a trimmed non-empty string returns exactly that string |
| JsText.TrimIdempotent | pages/EmergencyContactsPage.js:110-113 | trimming twice equals trimming once |
| JsText.DecimalString | utils/testUtils.js:41 | `String(n)` is a non-empty digit string without a leading zero |
| JsText.ParseDecimalString | utils/testUtils.js:41 | parsing `String(n)` gives back n |
| JsText.DecimalStringLength | utils/testUtils.js:30-32 | when 10^(k-1) <= n < 10^k, `String(n)` has k digits |
| JsText.DecimalStringBounds | utils/testUtils.js:30-32 | conversely, n < 10^len for len the length of `String(n)`, and 10^(len-1) <= n when n > 0, so the length is exactly the digit count |
| JsText.AsciiUpper | utils/testUtils.js:209 | `toUpperCase` keeps the length and maps each lower-case ASCII letter to its capital, leaving every other character as it is |
| TestData.InvalidCredentialsDiffer | config/testData.js:7-17 | no negative login fixture equals the valid credentials |
| TestData.ZipFixturesClassified | config/testData.js:20-46 | `isValidZip` rejects every declared invalid zip and accepts the valid address's zip |
| TestData.InvalidPhonesRejected | config/testData.js:44-45 | `isValidPhone` rejects every declared invalid phone number and the all-letters one |
| TestData.GroupedPhoneValid | config/testData.js:27-41 | any `+1-` phone with digit groups of lengths 3, 3 and 4 passes `isValidPhone` |
| TestData.ValidPhonesAccepted | config/testData.js:27-41 | `isValidPhone` accepts the valid phone and both phones of each valid emergency contact |
| TestData.TimeoutsOrdered | config/testData.js:49-51 | SHORT_TIMEOUT < DEFAULT_TIMEOUT < LONG_TIMEOUT |
| TestData.Resolve | config/testData.js:54-120 | a lookup of a registered (screen, field) pair returns one of that screen's locators |
| TestData.ContactInputsAlias | config/testData.js:86-97 | every address, phone and e-mail field of the contact-details screen resolves to the same locator `.oxd-input` |
| TestData.SubmitButtonsShared | config/testData.js:54-110 | the login button and every screen's save button resolve to `button[type="submit"]` |
| PageModel.Fill | pages/ContactDetailsPage.js:29 | `fill` times out iff the locator matches nothing; otherwise it sets that locator's slot and no other |
| PageModel.InputValue | pages/ContactDetailsPage.js:49 | `inputValue` times out iff the locator matches nothing; otherwise it returns that locator's slot |
| PageModel.FillThenRead | pages/ContactDetailsPage.js:28-50 | reading a slot right after filling it returns the value filled |
| EmergencyContactsPage.FillEmergencyContactForm | pages/EmergencyContactsPage.js:13-61 | times out iff the page has no inputs; otherwise the input count is kept, and each input holds its field's value when that field is present and its old value otherwise |
| EmergencyContactsPage.FillKeepsLeadingInputs | pages/EmergencyContactsPage.js:16-20 | inputs before index len-5 are never changed |
| EmergencyContactsPage.FillFieldSlot | pages/EmergencyContactsPage.js:22-60 | a present field, `''` included, ends up in slot len-5+k; an absent field leaves that slot unchanged |
| EmergencyContactsPage.FillShortPage | pages/EmergencyContactsPage.js:20-23 | with fewer than five inputs, leading fields are dropped and input j receives field j+5-len |
| EmergencyContactsPage.FillIdempotent | pages/EmergencyContactsPage.js:13-61 | filling the same payload twice equals filling it once |
| EmergencyContactsPage.ScanForContact | pages/EmergencyContactsPage.js:107-118 | the row loop is true iff some row with at least 4 cells has the trimmed name and trimmed home phone and no 2- or 3-cell row comes before it (rows under 2 cells are skipped, a 2- or 3-cell row ends the loop with false); a true result names a complete matching row |
| EmergencyContactsPage.IsContactInList | pages/EmergencyContactsPage.js:102-122 | false when the table never appears; on a table, true iff a complete row with the trimmed name and phone is reached before any 2- or 3-cell row |
| EmergencyContactsPage.ContactInListCharacterization | pages/EmergencyContactsPage.js:102-122 | `isContactInList` is true iff some row with at least 4 cells has the trimmed name and trimmed home phone, and no 2- or 3-cell row comes before it |
| EmergencyContactsPage.NoPhoneNeverFound | pages/EmergencyContactsPage.js:102-113 | called without a phone, `isContactInList` is always false |
| EmergencyContactsPage.ScanForDeletable | pages/EmergencyContactsPage.js:139-159 | the clicked index is in range, and that row is complete, matches (name, phone) and has a delete button |
| EmergencyContactsPage.DeleteContactByNameAndPhone | pages/EmergencyContactsPage.js:134-163 | a click happens only when the table appeared, and the clicked index lies within it |
| EmergencyContactsPage.ClickedIsFirst | pages/EmergencyContactsPage.js:139-159 | the clicked row comes after no truncated row and before every other deletable row |
| EmergencyContactsPage.DeleteFindsFirst | pages/EmergencyContactsPage.js:139-159 | a deletable row reached without an abort guarantees a click, at that row or an earlier one |
| EmergencyContactsPage.DeleteCharacterization | pages/EmergencyContactsPage.js:134-163 | the delete clicks row k iff k is the first deletable row and no truncated row precedes it |
| EmergencyContactsPage.DeleteImpliesFound | pages/EmergencyContactsPage.js:102-163 | if the delete succeeds, the lookup with the same arguments succeeds too |
| EmergencyContactsPage.AppendedContactFound | pages/EmergencyContactsPage.js:102-163 | on a table with no truncated row, an appended contact is found by trimmed (name, home phone) and can be deleted, and the row count grows by one |
| EmergencyContactsPage.IsContactInListIntended | pages/EmergencyContactsPage.js:102-122 | corrected lookup: true iff some complete row has the trimmed name and, when a phone is given, the trimmed home phone |
| EmergencyContactsPage.ScanIntended | pages/EmergencyContactsPage.js:107-118 | the corrected scan finds a match iff some row matches by the intended rule |
| EmergencyContactsPage.IntendedAgreesOnWellFormedTables | pages/EmergencyContactsPage.js:102-122 | on tables with no truncated row, and with a phone given, the corrected lookup and the lookup as written agree |
| EmergencyContactsPage.AppendedContactFoundIntended | pages/EmergencyContactsPage.js:102-122 | the corrected lookup finds an appended contact by name alone, and by (name, home phone), whatever rows precede it |
| EmergencyContactsPage.TruncatedRowHidesMatch | pages/EmergencyContactsPage.js:109-111 | a two-cell row ahead of a matching row makes the lookup as written return false; the corrected lookup returns true |
| EmergencyContactsPage.NameOnlyLookupFails | pages/EmergencyContactsPage.js:102-113 | a name-only lookup of the only contact in the table returns false as written; the corrected lookup returns true |
| EmergencyContactsPage.GetContactCount | pages/EmergencyContactsPage.js:124-132 | the number of rows, or 0 when the table never appears |
| EmergencyContactsPage.GetErrorMessages | pages/EmergencyContactsPage.js:87-100 | the texts of all error elements, and `[]` when none appears |
| EmergencyContactsPage.GetSuccessMessage | pages/EmergencyContactsPage.js:78-85 | `null` iff no success toast appears; otherwise the first toast's text |
| ContactDetailsPage.FillIfTruthy | pages/ContactDetailsPage.js:14-16 | a falsy value skips the write; a truthy value needs the element, sets its slot and changes nothing else |
| ContactDetailsPage.UpdateAddressWith | pages/ContactDetailsPage.js:13-26 | succeeds iff every truthy field's locator matches an element; the set of slots is unchanged; each slot ends up holding the last truthy field aimed at it, or its old value |
| ContactDetailsPage.GetAddressDataWith | pages/ContactDetailsPage.js:39-46 | times out iff one of the four locators matches nothing; otherwise returns the four slots in order |
| ContactDetailsPage.ClearAddressWith | pages/ContactDetailsPage.js:32-37 | times out iff one of the four locators matches nothing; otherwise the four address slots become `''` and nothing else changes |
| ContactDetailsPage.RegistryLocatorsResolved | config/testData.js:86-94 | the page object's street, city, state, zip and mobile locators are the registry's, and they are all the same locator |
| ContactDetailsPage.UpdateAddress | pages/ContactDetailsPage.js:13-26 | a payload with no truthy field changes nothing; otherwise the update succeeds iff the shared input exists |
| ContactDetailsPage.UpdateAddressLastWins | pages/ContactDetailsPage.js:14-25 | the shared input ends up holding the last truthy field in street, city, state, zip order, and every other slot is unchanged |
| ContactDetailsPage.UpdateAddressIdempotent | pages/ContactDetailsPage.js:13-26 | applying the same address payload twice equals applying it once |
| ContactDetailsPage.ClearAddress | pages/ContactDetailsPage.js:32-37 | succeeds iff the shared input exists, which then becomes `''`; nothing else changes |
| ContactDetailsPage.GetAddressData | pages/ContactDetailsPage.js:39-46 | succeeds iff the shared input exists, and then all four reported fields equal that input's value |
| ContactDetailsPage.ClearThenRead | pages/ContactDetailsPage.js:32-46 | after `clearAddress`, all four fields read back `''` |
| ContactDetailsPage.UpdatePhoneNumber | pages/ContactDetailsPage.js:28-30 | times out (on the mobile-phone locator) iff that locator matches nothing; otherwise its slot becomes the phone and nothing else changes |
| ContactDetailsPage.GetPhoneNumber | pages/ContactDetailsPage.js:48-50 | times out (on the mobile-phone locator) iff that locator matches nothing; otherwise returns that locator's slot |
| ContactDetailsPage.PhoneRoundTrip | pages/ContactDetailsPage.js:28-50 | `updatePhoneNumber(p)` then `getPhoneNumber()` returns p |
| ContactDetailsPage.AddressRoundTrip | pages/ContactDetailsPage.js:13-46 | with four distinct locators, an update then a read returns each truthy field and the old value of each skipped one |
| ContactDetailsPage.ValidAddressNotReadBack | pages/ContactDetailsPage.js:13-46 | as written, updating with the valid address then reading reports `10001` in all four fields, so the street differs from the one written |
| ContactDetailsPage.ValidatePhoneFormat | pages/ContactDetailsPage.js:78-81 | agrees with `TestUtils.isValidPhone` on every string; acceptance implies at least 10 digits |
| ContactDetailsPage.ValidateZipFormat | pages/ContactDetailsPage.js:83-86 | agrees with `TestUtils.isValidZip` on every string; accepted strings are 5 or 10 characters long |
| ContactDetailsPage.GetSuccessMessage | pages/ContactDetailsPage.js:57-64 | `null` iff no toast text appears; otherwise the first toast's text |
| ContactDetailsPage.GetErrorMessages | pages/ContactDetailsPage.js:66-76 | empty iff no field error is shown; otherwise the texts of all of them |

## Left out

- Browser plumbing is not modelled, because it is I/O:
  - navigation, clicks and `save`;
  - the network-idle and load-state waits;
  - `waitForElementStable`, `takeScreenshot`, `getCurrentTimestamp`, `waitForNetworkIdle` and `scrollIntoView`;
  - the Jest setup;
  - the login, dashboard, my-info and personal-details page objects.

  The scenario files are not modelled either, because their outcomes depend on the remote application.
- `Math.random` is not modelled. Every draw is a parameter, in the range the draw produces.
- Wait bounds (5000, 3000 ms) and sleeps are not modelled. A locator either appears within its bound or does not.
- The sentinel readers' own timeouts and exceptions are not modelled separately. They all collapse into "the element is absent", which gives the sentinel result.
- EmergencyContactsPage.DeleteContactByNameAndPhone: the confirm click after the trash click is assumed to succeed. A failure there would be caught, and the method would return `false`.
- TestUtils.RetryWithBackoff:
  - a non-integer `maxRetries`, where the loop can run out without rethrowing and the call returns `undefined` after failures, is not modelled;
  - `fn`'s outcomes are a sequence given in advance, at least `maxRetries` long;
  - the sleeps are returned as a list, not waited for;
  - a fractional `baseDelay` is not modelled: the model takes an integer, while the source accepts any number;
  - the defaults `maxRetries = 3` and `baseDelay = 1000` are not modelled, because both are explicit parameters of the method.
- TotalBackoff: delays are exact integers in the model. In the source `baseDelay * Math.pow(2, i)` is a double: it loses precision above 2^53 and is `Infinity` from i = 1024 on, so the requested total stated here holds only where the double is exact. Node still sleeps 1 ms for `Infinity`, the same clamp `SleptDelay` models for an integer above 2^31 - 1, so the time slept agrees.
- TotalBackoff: it sums the delays requested from `setTimeout`, not the time waited. Node replaces a delay below 1 ms or above 2^31 - 1 ms with 1 ms. `TotalSleep` states the time waited only where no delay is replaced, and `DefaultBackoffClamped` shows where that stops holding for the default base delay.
- TestUtils.RandomString: the default length (8) is not modelled, because every caller in the core passes a length.
- TestUtils.CleanTextForFilename: characters are Unicode scalar values, while JavaScript works on UTF-16 code units. A character outside the Basic Multilingual Plane therefore becomes one `_` here and two in JavaScript.
- JsText.AsciiUpper: only ASCII letters are upper-cased. The generator only passes ASCII letters to `toUpperCase`.
- `null` payload values are not modelled separately. In `fillEmergencyContactForm` a `null` field passes `!== undefined`, so its slot is cleared and the second fill is skipped: it acts exactly like a present `''` (`Some("")`). `updateAddress` skips it like an absent field, because it is falsy. Only `updatePhoneNumber(null)` would reach `fill(null)` and throw; the model takes a string there.
- Selector-engine semantics are not modelled. The page is a map from locator string to the value of the first matching input, together with the texts of matching read-only elements. The emergency-contact table is a list of rows of cell texts.

## Findings

| source | as written | input that shows it | evidently intended | confidence | as-written member | corrected member |
|---|---|---|---|---|---|---|
| pages/EmergencyContactsPage.js:109-111 | the guard `cells.length >= 2` admits rows with 2 or 3 cells. Reading `cells[3]` then throws, and the catch makes the whole lookup return `false` | rows `["", "Header"]` then a complete row for Jane Doe with home phone `555`: the lookup of (`Jane Doe`, `555`) is false | skip rows with fewer than 4 cells and keep scanning | medium, not executed | EmergencyContactsPage.TruncatedRowHidesMatch | EmergencyContactsPage.IsContactInListIntended |
| pages/EmergencyContactsPage.js:102-113 | the phone is compared with `===`, so calling with a name only compares the cell text with `undefined`, which is never true. The scenarios call `isContactInList(name)` and expect `true` (tests/emergencyContacts.test.js:52). This is evidence of intent, not an observed failure: that suite also calls page methods the page object does not define (`navigateToEmergencyContacts` at tests/emergencyContacts.test.js:21, `addEmergencyContact`, `save`), so as written it stops before line 52 | a table holding only the saved contact, looked up by its name alone: false | an omitted phone matches on the name alone | medium, not executed | EmergencyContactsPage.NameOnlyLookupFails | EmergencyContactsPage.IsContactInListIntended |
| pages/ContactDetailsPage.js:39-46 | street, city, state and zip all resolve to `.oxd-input` (config/testData.js:87-91). Writes land on one input, and reads report its value four times. The scenario expects each field back (tests/contactDetails.test.js:49-54) | `updateAddress(VALID_ADDRESS)` then `getAddressData()` gives street `10001`, not `123 Main Street` | one distinct locator per address field, so the update reads back field by field | medium, not executed | ContactDetailsPage.ValidAddressNotReadBack | ContactDetailsPage.AddressRoundTrip |

=== FILE: contactdetails.dfy ===
/** `ContactDetailsPage`: address and phone writes and reads through the
    locators of the selector registry, its two format validators, and its
    sentinel-returning message readers. */
module ContactDetailsPage {
  import opened Wrappers
  import opened PageModel
  import TestData
  import TestUtils

  // ===========================================================================
  // Address payloads and the locators they are written through
  // ===========================================================================

  /** An address payload; `None` is an `undefined` (or `null`) property. */
  datatype AddressPayload = AddressPayload(
    street: Option<string>, city: Option<string>, state: Option<string>, zip: Option<string>)

  /** What `getAddressData` returns. */
  datatype AddressData = AddressData(street: string, city: string, state: string, zip: string)

  /** The locators the four address fields are written and read through. */
  datatype AddressLocators = AddressLocators(street: string, city: string, state: string, zip: string)

  /** The locators the page object takes from the registry for street 1,
      city, state and zip (`RegistryLocatorsResolved` ties them to it). */
  const RegistryLocators: AddressLocators := AddressLocators(
    TestData.InputLocator, TestData.InputLocator, TestData.InputLocator, TestData.InputLocator)

  /** The registry's mobile-phone locator. */
  const MobileLocator: string := TestData.InputLocator

  predicate Distinct(locs: AddressLocators) {
    && locs.street != locs.city && locs.street != locs.state && locs.street != locs.zip
    && locs.city != locs.state && locs.city != locs.zip && locs.state != locs.zip
  }

  predicate IsAddressLocator(locs: AddressLocators, l: string) {
    l == locs.street || l == locs.city || l == locs.state || l == locs.zip
  }

  /** JavaScript truthiness of an optional string: present and non-empty. */
  predicate Truthy(v: Option<string>) {
    v.Some? && v.value != ""
  }

  /** A field whose write can go through: it is skipped, or its input exists. */
  predicate Writable(store: InputStore, locator: string, v: Option<string>) {
    !Truthy(v) || locator in store
  }

  /** The value the last write aimed at `l` carries, in the order street,
      city, state, zip; `None` when no truthy field targets `l`. */
  function LastWrite(locs: AddressLocators, a: AddressPayload, l: string): Option<string> {
    if l == locs.zip && Truthy(a.zip) then a.zip
    else if l == locs.state && Truthy(a.state) then a.state
    else if l == locs.city && Truthy(a.city) then a.city
    else if l == locs.street && Truthy(a.street) then a.street
    else None
  }

  /** `if (value) await page.fill(locator, value)` */
  function FillIfTruthy(store: InputStore, locator: string, v: Option<string>): (r: Result<InputStore, PageError>)
    ensures r.Success? <==> Writable(store, locator, v)
    ensures r.Success? ==> r.value.Keys == store.Keys
    ensures r.Success? ==> forall l :: l in store ==>
      r.value[l] == if l == locator && Truthy(v) then v.value else store[l]
  {
    if Truthy(v) then Fill(store, locator, v.value) else Success(store)
  }

  /** `updateAddress(addressData)` written through the locators `locs`. */
  function UpdateAddressWith(store: InputStore, locs: AddressLocators, a: AddressPayload): (r: Result<InputStore, PageError>)
    ensures r.Success? <==>
      && Writable(store, locs.street, a.street) && Writable(store, locs.city, a.city)
      && Writable(store, locs.state, a.state) && Writable(store, locs.zip, a.zip)
    ensures r.Success? ==> r.value.Keys == store.Keys
    ensures r.Success? ==> forall l :: l in store ==>
      r.value[l] == if LastWrite(locs, a, l).Some? then LastWrite(locs, a, l).value else store[l]
  {
    var s1 :- FillIfTruthy(store, locs.street, a.street);
    var s2 :- FillIfTruthy(s1, locs.city, a.city);
    var s3 :- FillIfTruthy(s2, locs.state, a.state);
    FillIfTruthy(s3, locs.zip, a.zip)
  }

  /** `getAddressData()` read through the locators `locs`. */
  function GetAddressDataWith(store: InputStore, locs: AddressLocators): (r: Result<AddressData, PageError>)
    ensures r.Success? <==>
      locs.street in store && locs.city in store && locs.state in store && locs.zip in store
    ensures r.Success? ==> r.value == AddressData(store[locs.street], store[locs.city], store[locs.state], store[locs.zip])
  {
    var street :- InputValue(store, locs.street);
    var city :- InputValue(store, locs.city);
    var state :- InputValue(store, locs.state);
    var zip :- InputValue(store, locs.zip);
    Success(AddressData(street, city, state, zip))
  }

  // ===========================================================================
  // The page object as written
  // ===========================================================================

  /** The locators above are the registry's, and the four address locators
      (and the mobile-phone one) are one and the same. */
  lemma RegistryLocatorsResolved()
    ensures RegistryLocators == AddressLocators(
      TestData.Resolve("CONTACT_DETAILS", "STREET1"), TestData.Resolve("CONTACT_DETAILS", "CITY"),
      TestData.Resolve("CONTACT_DETAILS", "STATE"), TestData.Resolve("CONTACT_DETAILS", "ZIP"))
    ensures MobileLocator == TestData.Resolve("CONTACT_DETAILS", "MOBILE_PHONE")
    ensures !Distinct(RegistryLocators)
  {
  }

  /** `updateAddress(addressData)` */
  function UpdateAddress(store: InputStore, a: AddressPayload): (r: Result<InputStore, PageError>)
    ensures !Truthy(a.street) && !Truthy(a.city) && !Truthy(a.state) && !Truthy(a.zip) ==> r == Success(store)
    ensures r.Success? <==>
      TestData.InputLocator in store || (!Truthy(a.street) && !Truthy(a.city) && !Truthy(a.state) && !Truthy(a.zip))
  {
    UpdateAddressWith(store, RegistryLocators, a)
  }

  /** The last truthy field of the payload in street, city, state, zip order. */
  function LastTruthy(a: AddressPayload): Option<string> {
    if Truthy(a.zip) then a.zip
    else if Truthy(a.state) then a.state
    else if Truthy(a.city) then a.city
    else if Truthy(a.street) then a.street
    else None
  }

  /** Because every address locator is the shared input, later writes win:
      the shared input ends up holding the last truthy field of the payload,
      and nothing else changes. */
  lemma UpdateAddressLastWins(store: InputStore, a: AddressPayload)
    requires TestData.InputLocator in store
    ensures UpdateAddress(store, a).Success?
    ensures var after := UpdateAddress(store, a).value;
      && after.Keys == store.Keys
      && after[TestData.InputLocator] ==
           (if LastTruthy(a).Some? then LastTruthy(a).value else store[TestData.InputLocator])
      && forall l :: l in store && l != TestData.InputLocator ==> after[l] == store[l]
  {
    assert LastWrite(RegistryLocators, a, TestData.InputLocator) == LastTruthy(a);
  }

  /** Applying the same address payload twice leaves the page as applying it once. */
  lemma UpdateAddressIdempotent(store: InputStore, a: AddressPayload)
    requires UpdateAddress(store, a).Success?
    ensures var once := UpdateAddress(store, a).value;
      UpdateAddress(once, a) == Success(once)
  {
    var once := UpdateAddress(store, a).value;
    var twice := UpdateAddress(once, a).value;
    assert twice.Keys == once.Keys;
    forall l | l in once ensures twice[l] == once[l] {
    }
    assert twice == once;
  }

  /** `clearAddress()` through the locators `locs`: writes `''` through the
      street, city, state and zip locators in turn. */
  function ClearAddressWith(store: InputStore, locs: AddressLocators): (r: Result<InputStore, PageError>)
    ensures r.Success? <==>
      locs.street in store && locs.city in store && locs.state in store && locs.zip in store
    ensures r.Success? ==> r.value.Keys == store.Keys
    ensures r.Success? ==> forall l :: l in store ==>
      r.value[l] == if IsAddressLocator(locs, l) then "" else store[l]
  {
    var s1 :- Fill(store, locs.street, "");
    var s2 :- Fill(s1, locs.city, "");
    var s3 :- Fill(s2, locs.state, "");
    Fill(s3, locs.zip, "")
  }

  /** `clearAddress()`: the shared input ends up empty, nothing else changes. */
  function ClearAddress(store: InputStore): (r: Result<InputStore, PageError>)
    ensures r.Success? <==> TestData.InputLocator in store
    ensures r.Success? ==> r.value == store[TestData.InputLocator := ""]
  {
    ClearAddressWith(store, RegistryLocators)
  }

  /** `getAddressData()` */
  function GetAddressData(store: InputStore): (r: Result<AddressData, PageError>)
    ensures r.Success? <==> TestData.InputLocator in store
    ensures r.Success? ==> r.value.street == r.value.city == r.value.state == r.value.zip
    ensures r.Success? ==> r.value.street == store[TestData.InputLocator]
  {
    GetAddressDataWith(store, RegistryLocators)
  }

  /** After `clearAddress`, every field `getAddressData` reports is empty. */
  lemma ClearThenRead(store: InputStore)
    requires TestData.InputLocator in store
    ensures ClearAddress(store).Success?
    ensures GetAddressData(ClearAddress(store).value) == Success(AddressData("", "", "", ""))
  {
  }

  /** `updatePhoneNumber(phoneNumber)` */
  function UpdatePhoneNumber(store: InputStore, phone: string): (r: Result<InputStore, PageError>)
    ensures r.Success? <==> MobileLocator in store
    ensures r.Failure? ==> r.error == Timeout(MobileLocator)
    ensures r.Success? ==> r.value == store[MobileLocator := phone]
  {
    Fill(store, MobileLocator, phone)
  }

  /** `getPhoneNumber()` */
  function GetPhoneNumber(store: InputStore): (r: Result<string, PageError>)
    ensures r.Success? <==> MobileLocator in store
    ensures r.Failure? ==> r.error == Timeout(MobileLocator)
    ensures r.Success? ==> r.value == store[MobileLocator]
  {
    InputValue(store, MobileLocator)
  }

  /** Writing a phone number and reading it back returns it. */
  lemma PhoneRoundTrip(store: InputStore, phone: string)
    requires MobileLocator in store
    ensures UpdatePhoneNumber(store, phone).Success?
    ensures GetPhoneNumber(UpdatePhoneNumber(store, phone).value) == Success(phone)
  {
    FillThenRead(store, MobileLocator, phone);
  }

  // ===========================================================================
  // The address round trip the scenarios evidently intend
  // ===========================================================================

  /** With four distinct locators, reading the address back after an update
      returns every truthy field of the payload and the old value of every
      skipped one. */
  lemma AddressRoundTrip(store: InputStore, locs: AddressLocators, a: AddressPayload)
    requires Distinct(locs)
    requires locs.street in store && locs.city in store && locs.state in store && locs.zip in store
    ensures UpdateAddressWith(store, locs, a).Success?
    ensures var after := UpdateAddressWith(store, locs, a).value;
      GetAddressDataWith(after, locs) == Success(AddressData(
        if Truthy(a.street) then a.street.value else store[locs.street],
        if Truthy(a.city) then a.city.value else store[locs.city],
        if Truthy(a.state) then a.state.value else store[locs.state],
        if Truthy(a.zip) then a.zip.value else store[locs.zip]))
  {
  }

  /** As written, filling the declared valid address and reading it back
      reports its zip code in all four fields, so the street read back is not
      the street written. */
  lemma ValidAddressNotReadBack(store: InputStore)
    requires TestData.InputLocator in store
    ensures var payload := AddressPayload(Some(TestData.ValidAddress.street), Some(TestData.ValidAddress.city),
                                          Some(TestData.ValidAddress.state), Some(TestData.ValidAddress.zip));
      && UpdateAddress(store, payload).Success?
      && GetAddressData(UpdateAddress(store, payload).value) == Success(AddressData("10001", "10001", "10001", "10001"))
      && GetAddressData(UpdateAddress(store, payload).value).value.street != TestData.ValidAddress.street
  {
    var payload := AddressPayload(Some(TestData.ValidAddress.street), Some(TestData.ValidAddress.city),
                                  Some(TestData.ValidAddress.state), Some(TestData.ValidAddress.zip));
    UpdateAddressLastWins(store, payload);
    assert LastTruthy(payload) == Some("10001");
  }

  // ===========================================================================
  // Validators and message readers
  // ===========================================================================

  /** `validatePhoneFormat(phone)`: the same test as `TestUtils.isValidPhone`,
      written out again in the page object. */
  function ValidatePhoneFormat(phone: string): (ok: bool)
    ensures ok == TestUtils.IsValidPhone(phone)
    ensures ok ==> |phone| > 0 && TestUtils.DigitCount(phone) >= 10
  {
    TestUtils.PhoneCharacterization(phone);
    TestUtils.PhoneRegex(phone) && |TestUtils.StripPhoneSymbols(phone)| >= 10
  }

  /** `validateZipFormat(zip)`: the same pattern as `TestUtils.isValidZip`. */
  function ValidateZipFormat(zip: string): (ok: bool)
    ensures ok == TestUtils.IsValidZip(zip)
    ensures ok ==> |zip| == 5 || |zip| == 10
  {
    TestUtils.ZipCharacterization(zip);
    exists k | 0 <= k <= |zip| :: TestUtils.ZipSplit(zip, k)
  }

  const ToastTextLocator: string := ".oxd-toast-content-text"
  const FieldErrorLocator: string := ".oxd-input-field-error-message"

  /** `getSuccessMessage()`: the first toast text, `null` when no toast
      appears within the bound. */
  function GetSuccessMessage(snapshot: TextSnapshot): (message: Option<string>)
    ensures message.None? <==> !Appears(snapshot, ToastTextLocator)
    ensures message.Some? ==> message.value == snapshot[ToastTextLocator][0]
  {
    if Appears(snapshot, ToastTextLocator) then Some(Texts(snapshot, ToastTextLocator)[0]) else None
  }

  /** `getErrorMessages()`: the texts of all field-level validation messages
      currently shown, `[]` when there are none. */
  function GetErrorMessages(snapshot: TextSnapshot): (messages: seq<string>)
    ensures |messages| == 0 <==> !Appears(snapshot, FieldErrorLocator)
    ensures FieldErrorLocator in snapshot ==> messages == snapshot[FieldErrorLocator]
  {
    Texts(snapshot, FieldErrorLocator)
  }
}

=== FILE: emergencycontacts.dfy ===
/** `EmergencyContactsPage`: the positional form filler over the page's list
    of generic inputs, the (name, phone) row scans over the contact table,
    and the sentinel-returning readers. */
module EmergencyContactsPage {
  import opened Wrappers
  import opened JsText
  import opened PageModel
  import TestData

  // ===========================================================================
  // fillEmergencyContactForm
  // ===========================================================================

  /** The form payload; `None` is an `undefined` property. */
  datatype ContactForm = ContactForm(
    name: Option<string>, relationship: Option<string>, homePhone: Option<string>,
    mobile: Option<string>, workPhone: Option<string>)

  /** The form occupies the last `FormSize` generic inputs of the page. */
  const FormSize: nat := 5

  /** Payload field `k` in form order: name, relationship, home, mobile, work. */
  function Field(form: ContactForm, k: nat): Option<string>
    requires k < FormSize
  {
    match k
    case 0 => form.name
    case 1 => form.relationship
    case 2 => form.homePhone
    case 3 => form.mobile
    case _ => form.workPhone
  }

  /** Index of the input that field `k` targets when the page has `n` inputs
      (`formStartIndex + k`); negative when the page has fewer than five. */
  function Slot(n: nat, k: nat): int {
    n - FormSize + k
  }

  /** One field's block: when the value is not `undefined` and the input
      exists, `fill('')`, then `fill(value)` unless the value is empty. */
  function FillSlot(inputs: seq<string>, index: int, value: Option<string>): (r: seq<string>)
    ensures |r| == |inputs|
  {
    if value.Some? && 0 <= index < |inputs| then
      var cleared := inputs[index := ""];
      if value.value != "" then cleared[index := value.value] else cleared
    else inputs
  }

  /** The value input `j` holds once the form has been filled: the field that
      targets it, when that field is present, and otherwise what it held. */
  function Expected(inputs: seq<string>, form: ContactForm, j: nat): string
    requires j < |inputs|
  {
    var k := j - (|inputs| - FormSize);
    if 0 <= k < FormSize && Field(form, k).Some? then Field(form, k).value else inputs[j]
  }

  /** `fillEmergencyContactForm(contactData)` over the current values of all
      `.oxd-input` elements. Waiting for the first input fails with a timeout
      when the page has none; that rejection is not caught. */
  function FillEmergencyContactForm(inputs: seq<string>, form: ContactForm): (r: Result<seq<string>, PageError>)
    ensures r.Success? <==> |inputs| > 0
    ensures r.Failure? ==> r.error == Timeout(TestData.InputLocator)
    ensures r.Success? ==> |r.value| == |inputs|
    ensures r.Success? ==> forall j :: 0 <= j < |inputs| ==> r.value[j] == Expected(inputs, form, j)
  {
    if |inputs| == 0 then Failure(Timeout(TestData.InputLocator))
    else
      var n := |inputs|;
      var s0 := FillSlot(inputs, Slot(n, 0), form.name);
      var s1 := FillSlot(s0, Slot(n, 1), form.relationship);
      var s2 := FillSlot(s1, Slot(n, 2), form.homePhone);
      var s3 := FillSlot(s2, Slot(n, 3), form.mobile);
      var s4 := FillSlot(s3, Slot(n, 4), form.workPhone);
      Success(s4)
  }

  /** Inputs in front of the form's five slots are never touched. */
  lemma FillKeepsLeadingInputs(inputs: seq<string>, form: ContactForm, j: nat)
    requires |inputs| > 0 && j < |inputs| - FormSize
    ensures FillEmergencyContactForm(inputs, form).value[j] == inputs[j]
  {
  }

  /** A present field, the empty string included, ends up in its slot; an
      absent one leaves its slot as it was. */
  lemma FillFieldSlot(inputs: seq<string>, form: ContactForm, k: nat)
    requires |inputs| > 0 && k < FormSize && 0 <= Slot(|inputs|, k)
    ensures Field(form, k).Some? ==>
      FillEmergencyContactForm(inputs, form).value[Slot(|inputs|, k)] == Field(form, k).value
    ensures Field(form, k).None? ==>
      FillEmergencyContactForm(inputs, form).value[Slot(|inputs|, k)] == inputs[Slot(|inputs|, k)]
  {
    assert Slot(|inputs|, k) - (|inputs| - FormSize) == k;
  }

  /** With fewer than five inputs the leading fields have no slot and are
      dropped; the trailing fields land on the inputs that exist, so the
      input at `j` receives field `j + 5 - |inputs|`. */
  lemma FillShortPage(inputs: seq<string>, form: ContactForm, j: nat)
    requires 0 < |inputs| < FormSize && j < |inputs|
    ensures var k := j + FormSize - |inputs|;
      FillEmergencyContactForm(inputs, form).value[j] ==
        if Field(form, k).Some? then Field(form, k).value else inputs[j]
  {
  }

  /** Filling the same payload twice leaves the inputs as filling it once. */
  lemma FillIdempotent(inputs: seq<string>, form: ContactForm)
    requires |inputs| > 0
    ensures var once := FillEmergencyContactForm(inputs, form).value;
      FillEmergencyContactForm(once, form) == Success(once)
  {
    var once := FillEmergencyContactForm(inputs, form).value;
    var twice := FillEmergencyContactForm(once, form).value;
    assert |once| == |inputs| == |twice|;
    forall j | 0 <= j < |once| ensures twice[j] == once[j] {
      assert twice[j] == Expected(once, form, j);
      assert once[j] == Expected(inputs, form, j);
    }
    assert twice == once;
  }

  // ===========================================================================
  // The contact table
  // ===========================================================================

  /** A table row: the text of each `.oxd-table-cell` and whether the row
      holds a delete (trash) button. */
  datatype Row = Row(cells: seq<string>, hasDeleteButton: bool)

  /** `None` when the table body never appears within the wait bound. */
  type ContactTable = Option<seq<Row>>

  /** A row that passes the `cells.length >= 2` guard but has no `cells[3]`:
      reading it throws, and the surrounding `catch` returns `false`. */
  predicate Truncated(row: Row) {
    2 <= |row.cells| < 4
  }

  predicate Complete(row: Row) {
    |row.cells| >= 4
  }

  /** `rowName.trim() === name && rowPhone.trim() === phone`, with the name
      in cell 1 and the home telephone in cell 3; an `undefined` phone
      equals no string. */
  predicate RowMatches(row: Row, name: string, phone: Option<string>)
    requires Complete(row)
  {
    Trim(row.cells[1]) == name && phone == Some(Trim(row.cells[3]))
  }

  /** No truncated row comes before index `k`. */
  predicate ReachedWithoutAbort(rows: seq<Row>, k: int)
    requires k <= |rows|
  {
    forall j :: 0 <= j < k ==> !Truncated(rows[j])
  }

  /** Row `k` is a complete row matching (name, phone) that the scan reaches. */
  predicate ReachableMatch(rows: seq<Row>, name: string, phone: Option<string>, k: int) {
    0 <= k < |rows| && Complete(rows[k]) && RowMatches(rows[k], name, phone) && ReachedWithoutAbort(rows, k)
  }

  lemma ReachableMatchShift(rows: seq<Row>, name: string, phone: Option<string>, k: int)
    requires |rows| > 0 && !Truncated(rows[0]) && 1 <= k
    ensures ReachableMatch(rows, name, phone, k) <==> ReachableMatch(rows[1..], name, phone, k - 1)
  {
    if k < |rows| {
      assert rows[1..][k - 1] == rows[k];
      if ReachedWithoutAbort(rows[1..], k - 1) {
        forall j | 0 <= j < k ensures !Truncated(rows[j]) {
          if j > 0 { assert rows[j] == rows[1..][j - 1]; }
        }
      }
      if ReachedWithoutAbort(rows, k) {
        forall j | 0 <= j < k - 1 ensures !Truncated(rows[1..][j]) {
          assert rows[1..][j] == rows[j + 1];
        }
      }
    }
  }

  /** A truncated first row hides every later match. */
  lemma TruncatedHeadUnreachable(rows: seq<Row>, name: string, phone: Option<string>)
    requires |rows| > 0 && Truncated(rows[0])
    ensures forall k :: !ReachableMatch(rows, name, phone, k)
  {
    forall k | 0 < k < |rows| ensures !ReachedWithoutAbort(rows, k) {
      assert Truncated(rows[0]);
    }
  }

  /** Past a first row that neither aborts nor matches, the reachable
      matches are those of the remaining rows. */
  lemma {:induction false} SkipHead(rows: seq<Row>, name: string, phone: Option<string>)
    requires |rows| > 0 && !Truncated(rows[0])
    requires !(Complete(rows[0]) && RowMatches(rows[0], name, phone))
    ensures (exists k :: ReachableMatch(rows, name, phone, k)) <==> (exists k :: ReachableMatch(rows[1..], name, phone, k))
  {
    if exists k :: ReachableMatch(rows[1..], name, phone, k) {
      var k :| ReachableMatch(rows[1..], name, phone, k);
      ReachableMatchShift(rows, name, phone, k + 1);
    }
    if exists k :: ReachableMatch(rows, name, phone, k) {
      var k :| ReachableMatch(rows, name, phone, k);
      assert k != 0;
      ReachableMatchShift(rows, name, phone, k);
    }
  }

  /** The loop of `isContactInList` over the rows that remain: rows with
      fewer than 2 cells are skipped, a truncated row ends the scan with
      `false`, and the first complete match ends it with `true`. */
  function ScanForContact(rows: seq<Row>, name: string, phone: Option<string>): (found: bool)
    ensures found <==> exists k :: ReachableMatch(rows, name, phone, k)
    ensures found ==> exists k :: 0 <= k < |rows| && Complete(rows[k]) && RowMatches(rows[k], name, phone)
  {
    if |rows| == 0 then false
    else
      var row := rows[0];
      if |row.cells| >= 2 && Truncated(row) then
        TruncatedHeadUnreachable(rows, name, phone);
        false
      else if |row.cells| >= 2 && RowMatches(row, name, phone) then
        assert ReachableMatch(rows, name, phone, 0);
        true
      else
        var found := ScanForContact(rows[1..], name, phone);
        SkipHead(rows, name, phone);
        found
  }

  /** `isContactInList(name, phone)` */
  function IsContactInList(table: ContactTable, name: string, phone: Option<string>): (found: bool)
    ensures found ==> table.Some?
    ensures table.Some? ==> (found <==> exists k :: ReachableMatch(table.value, name, phone, k))
    ensures found ==> exists k :: 0 <= k < |table.value| && Complete(table.value[k]) && RowMatches(table.value[k], name, phone)
  {
    match table
    case None => false
    case Some(rows) => ScanForContact(rows, name, phone)
  }

  /** The lookup succeeds exactly when some complete row matching
      (name, phone) is reached before any truncated row; the induction is
      the one in `ScanForContact`'s contract. */
  lemma ContactInListCharacterization(rows: seq<Row>, name: string, phone: Option<string>)
    ensures IsContactInList(Some(rows), name, phone) <==> exists k :: ReachableMatch(rows, name, phone, k)
  {
  }

  /** Without a phone argument the lookup never succeeds: the trimmed cell
      text is compared with `undefined`. */
  lemma {:induction false} NoPhoneNeverFound(table: ContactTable, name: string)
    ensures !IsContactInList(table, name, None)
  {
    if table.Some? {
      var rows := table.value;
      ContactInListCharacterization(rows, name, None);
    }
  }

  /** The loop of `deleteContactByNameAndPhone`: the index of the row whose
      delete button is clicked, or `None` when the scan ends (or aborts)
      without clicking. Matching rows without a button are passed over. */
  function ScanForDeletable(rows: seq<Row>, name: string, phone: Option<string>): (clicked: Option<nat>)
    ensures clicked.Some? ==> clicked.value < |rows|
    ensures clicked.Some? ==>
      var row := rows[clicked.value];
      Complete(row) && RowMatches(row, name, phone) && row.hasDeleteButton
  {
    if |rows| == 0 then None
    else
      var row := rows[0];
      if |row.cells| >= 2 then
        if Truncated(row) then None
        else if RowMatches(row, name, phone) && row.hasDeleteButton then Some(0)
        else match ScanForDeletable(rows[1..], name, phone)
          case None => None
          case Some(k) => Some(k + 1)
      else match ScanForDeletable(rows[1..], name, phone)
        case None => None
        case Some(k) => Some(k + 1)
  }

  /** `deleteContactByNameAndPhone(name, phone)`: which row's delete button
      is clicked (and confirmed); the method returns `true` exactly when this
      is `Some`. */
  function DeleteContactByNameAndPhone(table: ContactTable, name: string, phone: Option<string>): (clicked: Option<nat>)
    ensures clicked.Some? ==> table.Some? && clicked.value < |table.value|
  {
    match table
    case None => None
    case Some(rows) => ScanForDeletable(rows, name, phone)
  }

  /** A row the delete scan would click: complete, matching and with a button. */
  predicate Deletable(row: Row, name: string, phone: Option<string>) {
    Complete(row) && RowMatches(row, name, phone) && row.hasDeleteButton
  }

  /** Row `k` is the first deletable row and the scan reaches it. */
  predicate FirstDeletable(rows: seq<Row>, name: string, phone: Option<string>, k: int) {
    && 0 <= k < |rows| && Deletable(rows[k], name, phone) && ReachedWithoutAbort(rows, k)
    && forall j :: 0 <= j < k ==> !Deletable(rows[j], name, phone)
  }

  /** Past a first row that neither aborts nor is deletable, the first
      deletable row of the remaining rows is the first of all rows. */
  lemma FirstDeletableShift(rows: seq<Row>, name: string, phone: Option<string>, k: int)
    requires |rows| > 0 && !Truncated(rows[0]) && !Deletable(rows[0], name, phone)
    requires FirstDeletable(rows[1..], name, phone, k - 1)
    ensures FirstDeletable(rows, name, phone, k)
  {
    assert rows[k] == rows[1..][k - 1];
    forall j | 0 <= j < k ensures !Truncated(rows[j]) && !Deletable(rows[j], name, phone) {
      if j > 0 { assert rows[j] == rows[1..][j - 1]; }
    }
  }

  /** One step of the delete scan: a click past the first row means the
      first row neither aborted nor was clicked. */
  lemma ScanForDeletableStep(rows: seq<Row>, name: string, phone: Option<string>)
    requires |rows| > 0
    ensures var clicked := ScanForDeletable(rows, name, phone);
      clicked.Some? && clicked.value > 0 ==>
        && !Truncated(rows[0]) && !Deletable(rows[0], name, phone)
        && ScanForDeletable(rows[1..], name, phone) == Some(clicked.value - 1)
  {
  }

  /** The row the delete scan clicks comes before every other deletable row
      and after no truncated row. */
  lemma {:induction false} ClickedIsFirst(rows: seq<Row>, name: string, phone: Option<string>)
    ensures var clicked := ScanForDeletable(rows, name, phone);
      clicked.Some? ==> FirstDeletable(rows, name, phone, clicked.value)
  {
    var clicked := ScanForDeletable(rows, name, phone);
    if clicked.Some? {
      var k := clicked.value;
      if k == 0 {
        assert Deletable(rows[0], name, phone);
      } else {
        ScanForDeletableStep(rows, name, phone);
        ClickedIsFirst(rows[1..], name, phone);
        FirstDeletableShift(rows, name, phone, k);
      }
    }
  }

  /** The delete scan clicks row `k` exactly when `k` is the first deletable
      row and no truncated row comes before it. */
  lemma DeleteCharacterization(rows: seq<Row>, name: string, phone: Option<string>, k: nat)
    ensures DeleteContactByNameAndPhone(Some(rows), name, phone) == Some(k) <==> FirstDeletable(rows, name, phone, k)
  {
    ClickedIsFirst(rows, name, phone);
    if FirstDeletable(rows, name, phone, k) {
      DeleteFindsFirst(rows, name, phone, k);
    }
  }

  /** A deletion succeeds only if the lookup with the same arguments does. */
  lemma DeleteImpliesFound(table: ContactTable, name: string, phone: Option<string>)
    ensures DeleteContactByNameAndPhone(table, name, phone).Some? ==> IsContactInList(table, name, phone)
  {
    if table.Some? {
      var rows := table.value;
      var clicked := DeleteContactByNameAndPhone(table, name, phone);
      if clicked.Some? {
        DeleteCharacterization(rows, name, phone, clicked.value);
        assert ReachableMatch(rows, name, phone, clicked.value);
        ContactInListCharacterization(rows, name, phone);
      }
    }
  }

  // ===========================================================================
  // Appending a row (what a successful save is expected to do)
  // ===========================================================================

  /** An assumed layout for the row of a saved contact: a checkbox cell, the
      name, the relationship, the home and mobile telephones, and the actions.
      Only cells 1 (name) and 3 (home telephone) matter to the scans; the
      source does not fix the other columns. */
  function ContactRow(name: string, relationship: string, homePhone: string, mobile: string): (row: Row)
    ensures Complete(row)
  {
    Row(["", name, relationship, homePhone, mobile, ""], true)
  }

  /** When no row of the table is truncated, a contact appended to it is
      found by its trimmed (name, home phone) pair and the count grows by
      one; it can also be deleted. */
  lemma {:induction false} AppendedContactFound(rows: seq<Row>, name: string, relationship: string,
                                                homePhone: string, mobile: string)
    requires forall j :: 0 <= j < |rows| ==> !Truncated(rows[j])
    ensures var after := rows + [ContactRow(name, relationship, homePhone, mobile)];
      && IsContactInList(Some(after), Trim(name), Some(Trim(homePhone)))
      && DeleteContactByNameAndPhone(Some(after), Trim(name), Some(Trim(homePhone))).Some?
      && GetContactCount(Some(after)) == GetContactCount(Some(rows)) + 1
  {
    var after := rows + [ContactRow(name, relationship, homePhone, mobile)];
    var k := |rows|;
    assert after[k] == ContactRow(name, relationship, homePhone, mobile);
    assert ReachedWithoutAbort(after, k) by {
      forall j | 0 <= j < k ensures !Truncated(after[j]) { assert after[j] == rows[j]; }
    }
    assert ReachableMatch(after, Trim(name), Some(Trim(homePhone)), k);
    ContactInListCharacterization(after, Trim(name), Some(Trim(homePhone)));
    DeleteFindsFirst(after, Trim(name), Some(Trim(homePhone)), k);
  }

  /** When a deletable row is reached without an abort, the delete scan clicks
      some row at or before it. */
  lemma {:induction false} DeleteFindsFirst(rows: seq<Row>, name: string, phone: Option<string>, k: nat)
    requires k < |rows| && Deletable(rows[k], name, phone) && ReachedWithoutAbort(rows, k)
    ensures DeleteContactByNameAndPhone(Some(rows), name, phone).Some?
    ensures DeleteContactByNameAndPhone(Some(rows), name, phone).value <= k
  {
    if k > 0 && !Deletable(rows[0], name, phone) {
      assert rows[1..][k - 1] == rows[k];
      assert ReachedWithoutAbort(rows[1..], k - 1) by {
        forall j | 0 <= j < k - 1 ensures !Truncated(rows[1..][j]) {
          assert rows[1..][j] == rows[j + 1];
        }
      }
      DeleteFindsFirst(rows[1..], name, phone, k - 1);
    }
  }

  // ===========================================================================
  // The lookup the scenarios evidently intend
  // ===========================================================================

  /** A complete row whose trimmed name cell is `name` and, when a phone is
      given, whose trimmed home-telephone cell is that phone. */
  predicate IntendedMatch(row: Row, name: string, phone: Option<string>) {
    Complete(row) && Trim(row.cells[1]) == name && (phone.None? || phone == Some(Trim(row.cells[3])))
  }

  /** The row scan with the guard widened to the cells it reads (rows with
      fewer than four cells are skipped, never fatal) and with an omitted
      phone meaning "match on the name alone". */
  function ScanIntended(rows: seq<Row>, name: string, phone: Option<string>): (found: bool)
    ensures found ==> exists k :: 0 <= k < |rows| && IntendedMatch(rows[k], name, phone)
    ensures !found ==> forall k :: 0 <= k < |rows| ==> !IntendedMatch(rows[k], name, phone)
  {
    if |rows| == 0 then false
    else if IntendedMatch(rows[0], name, phone) then true
    else
      var found := ScanIntended(rows[1..], name, phone);
      assert forall k :: 0 <= k < |rows| - 1 ==> rows[1..][k] == rows[k + 1];
      found
  }

  function IsContactInListIntended(table: ContactTable, name: string, phone: Option<string>): (found: bool)
    ensures found <==> table.Some? && exists k :: 0 <= k < |table.value| && IntendedMatch(table.value[k], name, phone)
  {
    match table
    case None => false
    case Some(rows) => ScanIntended(rows, name, phone)
  }

  /** On tables without truncated rows and with a phone given, the intended
      lookup and the one as written agree. */
  lemma IntendedAgreesOnWellFormedTables(rows: seq<Row>, name: string, phone: string)
    requires forall j :: 0 <= j < |rows| ==> !Truncated(rows[j])
    ensures IsContactInListIntended(Some(rows), name, Some(phone)) == IsContactInList(Some(rows), name, Some(phone))
  {
    ContactInListCharacterization(rows, name, Some(phone));
    if IsContactInListIntended(Some(rows), name, Some(phone)) {
      var k :| 0 <= k < |rows| && IntendedMatch(rows[k], name, Some(phone));
      assert ReachableMatch(rows, name, Some(phone), k);
    }
  }

  /** A saved contact is found by its name alone and by (name, home phone),
      whatever rows the table already holds. */
  lemma AppendedContactFoundIntended(rows: seq<Row>, name: string, relationship: string,
                                     homePhone: string, mobile: string)
    ensures var after := rows + [ContactRow(name, relationship, homePhone, mobile)];
      && IsContactInListIntended(Some(after), Trim(name), None)
      && IsContactInListIntended(Some(after), Trim(name), Some(Trim(homePhone)))
  {
    var after := rows + [ContactRow(name, relationship, homePhone, mobile)];
    assert IntendedMatch(after[|rows|], Trim(name), None);
    assert IntendedMatch(after[|rows|], Trim(name), Some(Trim(homePhone)));
  }

  /** A two- or three-cell row ahead of a matching row makes the lookup as
      written report `false`; the intended lookup finds the contact. */
  lemma TruncatedRowHidesMatch()
    ensures var rows := [Row(["", "Header"], false), ContactRow("Jane Doe", "Spouse", "555", "556")];
      && !IsContactInList(Some(rows), "Jane Doe", Some("555"))
      && IsContactInListIntended(Some(rows), "Jane Doe", Some("555"))
  {
    var rows := [Row(["", "Header"], false), ContactRow("Jane Doe", "Spouse", "555", "556")];
    assert Truncated(rows[0]);
    assert !ScanForContact(rows, "Jane Doe", Some("555"));
    TrimOfTrimmed("Jane Doe");
    TrimOfTrimmed("555");
    assert IntendedMatch(rows[1], "Jane Doe", Some("555"));
  }

  /** Looking a saved contact up by its name alone, as the scenarios do,
      reports `false` even when it is the only row; the intended lookup finds
      it. */
  lemma NameOnlyLookupFails(name: string, relationship: string, homePhone: string, mobile: string)
    ensures var rows := [ContactRow(name, relationship, homePhone, mobile)];
      && !IsContactInList(Some(rows), Trim(name), None)
      && IsContactInListIntended(Some(rows), Trim(name), None)
  {
    var rows := [ContactRow(name, relationship, homePhone, mobile)];
    NoPhoneNeverFound(Some(rows), Trim(name));
    assert IntendedMatch(rows[0], Trim(name), None);
  }

  // ===========================================================================
  // Readers with sentinel results
  // ===========================================================================

  /** `getContactCount`: the number of rows, or 0 when the table never appears. */
  function GetContactCount(table: ContactTable): (count: nat)
    ensures table.None? ==> count == 0
    ensures table.Some? ==> count == |table.value|
  {
    match table
    case None => 0
    case Some(rows) => |rows|
  }

  /** `getErrorMessages`: the texts of all validation messages once the first
      one appears; `[]` when none appears within the bound. */
  function GetErrorMessages(snapshot: TextSnapshot): (messages: seq<string>)
    ensures messages == Texts(snapshot, TestData.Resolve("EMERGENCY_CONTACTS", "ERROR_MESSAGE"))
    ensures !Appears(snapshot, TestData.Resolve("EMERGENCY_CONTACTS", "ERROR_MESSAGE")) ==> messages == []
  {
    var locator := TestData.Resolve("EMERGENCY_CONTACTS", "ERROR_MESSAGE");
    if Appears(snapshot, locator) then Texts(snapshot, locator) else []
  }

  /** `getSuccessMessage`: the first success toast's text, `null` when no
      toast appears within the bound. */
  function GetSuccessMessage(snapshot: TextSnapshot): (message: Option<string>)
    ensures var locator := TestData.Resolve("EMERGENCY_CONTACTS", "SUCCESS_MESSAGE");
      && (message.None? <==> !Appears(snapshot, locator))
      && (message.Some? ==> message.value == Texts(snapshot, locator)[0])
  {
    var locator := TestData.Resolve("EMERGENCY_CONTACTS", "SUCCESS_MESSAGE");
    if Appears(snapshot, locator) then Some(Texts(snapshot, locator)[0]) else None
  }

  /** `isNoRecordsFound`: whether the "No Records Found" card is present. */
  function IsNoRecordsFound(snapshot: TextSnapshot): (found: bool)
    ensures found <==> Appears(snapshot, TestData.Resolve("EMERGENCY_CONTACTS", "NO_RECORDS_FOUND"))
  {
    Appears(snapshot, TestData.Resolve("EMERGENCY_CONTACTS", "NO_RECORDS_FOUND"))
  }
}

=== FILE: jstext.dfy ===
/** The small slice of JavaScript string semantics the harness relies on:
    the `\s` / `String.prototype.trim` whitespace set, the `\d` digit class,
    `String(n)` for non-negative integers and ASCII upper-casing. */
module JsText {

  /** ECMAScript WhiteSpace and LineTerminator code points: the set matched
      by the regular-expression class `\s` and stripped by `trim()`. */
  const Whitespace: set<char> := {
    '\t', '\n', '\U{000B}', '\U{000C}', '\r', ' ', '\U{00A0}', '\U{1680}',
    '\U{2000}', '\U{2001}', '\U{2002}', '\U{2003}', '\U{2004}', '\U{2005}',
    '\U{2006}', '\U{2007}', '\U{2008}', '\U{2009}', '\U{200A}',
    '\U{2028}', '\U{2029}', '\U{202F}', '\U{205F}', '\U{3000}', '\U{FEFF}'
  }

  predicate IsSpace(c: char) {
    c in Whitespace
  }

  /** The regular-expression class `\d`: ASCII digits only. */
  predicate IsDigit(c: char) {
    '0' <= c <= '9'
  }

  predicate IsLetter(c: char) {
    ('a' <= c <= 'z') || ('A' <= c <= 'Z')
  }

  predicate AllDigits(s: string) {
    forall i :: 0 <= i < |s| ==> IsDigit(s[i])
  }

  predicate AllSpace(s: string) {
    forall i :: 0 <= i < |s| ==> IsSpace(s[i])
  }

  // ---------------------------------------------------------------------------
  // trim()
  // ---------------------------------------------------------------------------

  /** A string `trim()` leaves alone: it neither starts nor ends with whitespace. */
  predicate IsTrimmed(s: string) {
    |s| == 0 || (!IsSpace(s[0]) && !IsSpace(s[|s| - 1]))
  }

  /** Length of the longest all-whitespace prefix. */
  function LeadingSpace(s: string): (n: nat)
    ensures n <= |s|
    ensures AllSpace(s[..n])
    ensures n < |s| ==> !IsSpace(s[n])
  {
    if |s| > 0 && IsSpace(s[0]) then
      var n := 1 + LeadingSpace(s[1..]);
      assert s[..n] == [s[0]] + s[1..][..n - 1];
      n
    else 0
  }

  /** Length of the longest all-whitespace suffix. */
  function TrailingSpace(s: string): (n: nat)
    ensures n <= |s|
    ensures AllSpace(s[|s| - n..])
    ensures n < |s| ==> !IsSpace(s[|s| - n - 1])
  {
    if |s| > 0 && IsSpace(s[|s| - 1]) then
      var n := 1 + TrailingSpace(s[..|s| - 1]);
      assert s[|s| - n..] == s[..|s| - 1][|s| - n..] + [s[|s| - 1]];
      n
    else 0
  }

  /** `String.prototype.trim`: strip leading, then trailing, whitespace. */
  function Trim(s: string): (r: string)
    ensures IsTrimmed(r)
    ensures |r| <= |s|
  {
    var t := s[LeadingSpace(s)..];
    t[..|t| - TrailingSpace(t)]
  }

  lemma LeadingSpaceOfPadded(p: string, t: string)
    requires AllSpace(p)
    requires |t| == 0 || !IsSpace(t[0])
    ensures LeadingSpace(p + t) == |p|
  {
    if |p| > 0 {
      assert (p + t)[1..] == p[1..] + t;
      LeadingSpaceOfPadded(p[1..], t);
    }
  }

  lemma TrailingSpaceOfPadded(t: string, q: string)
    requires AllSpace(q)
    requires |t| == 0 || !IsSpace(t[|t| - 1])
    ensures TrailingSpace(t + q) == |q|
  {
    if |q| > 0 {
      assert (t + q)[..|t + q| - 1] == t + q[..|q| - 1];
      TrailingSpaceOfPadded(t, q[..|q| - 1]);
    }
  }

  /** `trim()` recovers a trimmed text from any whitespace padding around it,
      so the trimmed text of a cell is its unique non-blank core. */
  lemma {:induction false} TrimPadded(p: string, t: string, q: string)
    requires AllSpace(p) && AllSpace(q) && IsTrimmed(t)
    requires |t| > 0
    ensures Trim(p + t + q) == t
  {
    var s := p + t + q;
    assert s == p + (t + q);
    LeadingSpaceOfPadded(p, t + q);
    assert s[|p|..] == t + q;
    TrailingSpaceOfPadded(t, q);
  }

  /** An all-whitespace text trims to the empty string. */
  lemma {:induction false} TrimBlank(s: string)
    requires AllSpace(s)
    ensures Trim(s) == ""
  {
    LeadingSpaceOfPadded(s, "");
    assert s + "" == s;
  }

  lemma TrimOfTrimmed(t: string)
    requires IsTrimmed(t)
    ensures Trim(t) == t
  {
    if |t| == 0 {
      TrimBlank(t);
    } else {
      assert "" + t + "" == t;
      TrimPadded("", t, "");
    }
  }

  /** `trim()` is idempotent. */
  lemma TrimIdempotent(s: string)
    ensures Trim(Trim(s)) == Trim(s)
  {
    TrimOfTrimmed(Trim(s));
  }

  // ---------------------------------------------------------------------------
  // String(n) for non-negative integers
  // ---------------------------------------------------------------------------

  function DigitChar(d: nat): (c: char)
    requires d < 10
    ensures IsDigit(c)
  {
    (48 + d) as char
  }

  function DigitValue(c: char): (d: nat)
    requires IsDigit(c)
    ensures d < 10
  {
    (c as int) - 48
  }

  /** `String(n)`: the shortest decimal rendering of `n`. */
  function DecimalString(n: nat): (r: string)
    ensures |r| > 0
    ensures AllDigits(r)
    ensures |r| > 1 ==> r[0] != '0'
  {
    if n < 10 then [DigitChar(n)]
    else DecimalString(n / 10) + [DigitChar(n % 10)]
  }

  /** Reads a string of decimal digits back as a number. */
  function ParseDecimal(s: string): nat
    requires AllDigits(s)
  {
    if |s| == 0 then 0
    else 10 * ParseDecimal(s[..|s| - 1]) + DigitValue(s[|s| - 1])
  }

  lemma {:induction false} ParseDecimalString(n: nat)
    ensures ParseDecimal(DecimalString(n)) == n
  {
    var r := DecimalString(n);
    if n >= 10 {
      assert r[..|r| - 1] == DecimalString(n / 10);
      ParseDecimalString(n / 10);
    }
  }

  function Pow10(k: nat): (p: nat)
    ensures p >= 1
  {
    if k == 0 then 1 else 10 * Pow10(k - 1)
  }

  /** A number with exactly `k` decimal digits is rendered with `k` characters. */
  lemma {:induction false} DecimalStringLength(n: nat, k: nat)
    requires k >= 1
    requires Pow10(k - 1) <= n < Pow10(k)
    ensures |DecimalString(n)| == k
  {
    if k > 1 {
      DecimalStringLength(n / 10, k - 1);
    }
  }

  /** Conversely, `String(n)` has as many characters as `n` has decimal
      digits (zero is rendered as the single digit `0`); with
      `DecimalStringLength` this makes the length exact. */
  lemma {:induction false} DecimalStringBounds(n: nat)
    ensures n < Pow10(|DecimalString(n)|)
    ensures n > 0 ==> Pow10(|DecimalString(n)| - 1) <= n
  {
    if n < 10 {
      assert Pow10(1) == 10;
    }
    if n >= 10 {
      DecimalStringBounds(n / 10);
      var m := |DecimalString(n / 10)|;
      assert |DecimalString(n)| == m + 1;
      assert n == 10 * (n / 10) + n % 10;
      assert n / 10 + 1 <= Pow10(m);
      assert 10 * (n / 10) + 10 <= 10 * Pow10(m);
      assert 10 * Pow10(m - 1) <= 10 * (n / 10);
    }
  }

  // ---------------------------------------------------------------------------
  // toUpperCase() on ASCII
  // ---------------------------------------------------------------------------

  function UpperChar(c: char): (u: char)
    ensures 'a' <= c <= 'z' ==> 'A' <= u <= 'Z' && u as int == c as int - 32
    ensures !('a' <= c <= 'z') ==> u == c
  {
    if 'a' <= c <= 'z' then (c as int - 32) as char else c
  }

  /** `toUpperCase()` restricted to ASCII: lower-case ASCII letters are raised,
      every other character is kept. */
  function AsciiUpper(s: string): (r: string)
    ensures |r| == |s|
    ensures forall i :: 0 <= i < |s| ==> r[i] == UpperChar(s[i])
  {
    seq(|s|, i requires 0 <= i < |s| => UpperChar(s[i]))
  }
}

=== FILE: pagemodel.dfy ===
/** The page as the page objects see it, reduced to what their logic depends
    on. Input values are kept per locator string: `page.fill(locator, v)` and
    `page.inputValue(locator)` act on the first element the locator matches,
    so two logical fields whose locators coincide share one slot. Read-only
    elements (toasts, validation messages) are kept as the texts of every
    element each locator matches, in document order. A locator that matches
    nothing within the wait bound is a timeout. */
module PageModel {
  import opened Wrappers

  datatype PageError = Timeout(locator: string)

  /** Locator -> value of the first input it matches; no key, no element. */
  type InputStore = map<string, string>

  /** Locator -> texts of all elements it matches. */
  type TextSnapshot = map<string, seq<string>>

  /** `page.fill(locator, value)` */
  function Fill(store: InputStore, locator: string, value: string): (r: Result<InputStore, PageError>)
    ensures r.Success? <==> locator in store
    ensures r.Failure? ==> r.error == Timeout(locator)
    ensures r.Success? ==> r.value.Keys == store.Keys && r.value[locator] == value
    ensures r.Success? ==> forall l :: l in store && l != locator ==> r.value[l] == store[l]
  {
    if locator in store then Success(store[locator := value]) else Failure(Timeout(locator))
  }

  /** `page.inputValue(locator)` */
  function InputValue(store: InputStore, locator: string): (r: Result<string, PageError>)
    ensures r.Success? <==> locator in store
    ensures r.Success? ==> r.value == store[locator]
    ensures r.Failure? ==> r.error == Timeout(locator)
  {
    if locator in store then Success(store[locator]) else Failure(Timeout(locator))
  }

  /** Reading a slot right after filling it returns what was written. */
  lemma FillThenRead(store: InputStore, locator: string, value: string)
    requires locator in store
    ensures Fill(store, locator, value).Success?
    ensures InputValue(Fill(store, locator, value).value, locator) == Success(value)
  {
  }

  /** The texts of every element `locator` matches (`$$` / `$$eval`). */
  function Texts(snapshot: TextSnapshot, locator: string): (r: seq<string>)
    ensures locator in snapshot ==> r == snapshot[locator]
    ensures locator !in snapshot ==> r == []
  {
    if locator in snapshot then snapshot[locator] else []
  }

  /** `waitForSelector(locator)` resolves rather than timing out. */
  predicate Appears(snapshot: TextSnapshot, locator: string) {
    |Texts(snapshot, locator)| > 0
  }
}

=== FILE: testdata.dfy ===
/** The harness's static configuration: fixture constants, timeouts and the
    selector registry, together with the closed facts the scenarios rely on
    (declared valid fixtures pass the validators, declared invalid ones fail
    them, and which logical fields share a locator). */
module TestData {
  import opened JsText
  import opened TestUtils

  // ===========================================================================
  // Application URLs and credentials
  // ===========================================================================

  // The two application URLs of the configuration; no scenario modelled here reads them.
  const BaseUrl: string := "https://opensource-demo.orangehrmlive.com/web/index.php/auth/login"
  const DashboardUrl: string := "https://opensource-demo.orangehrmlive.com/web/index.php/dashboard/index"

  datatype Credentials = Credentials(username: string, password: string)

  const ValidCredentials: Credentials := Credentials("Admin", "admin123")

  const InvalidCredentials: seq<Credentials> := [
    Credentials("InvalidUser", "admin123"),
    Credentials("Admin", "wrongpass"),
    Credentials("", "")
  ]

  /** Every negative login fixture differs from the valid pair. */
  lemma InvalidCredentialsDiffer()
    ensures forall k :: 0 <= k < |InvalidCredentials| ==> InvalidCredentials[k] != ValidCredentials
  {
  }

  // ===========================================================================
  // Fixtures
  // ===========================================================================

  const ValidAddress: Address := Address("123 Main Street", "New York", "NY", "10001")

  const ValidPhone: string := "+1-555-123-4567"

  const ValidEmergencyContact: EmergencyContact :=
    EmergencyContact("Jane Doe", "Spouse", "+1-555-987-6543", "+1-555-987-6544")

  const ValidEmergencyContact2: EmergencyContact :=
    EmergencyContact("John Smith", "Brother", "+1-555-111-2222", "+1-555-111-2223")

  const InvalidPhoneNumbers: seq<string> := ["123", "abcdefg", "555-CALL"]
  const InvalidPhoneAlphabets: string := "abcdefghij"
  const InvalidZipCodes: seq<string> := ["ABCDE", "123", "1234567890"]

  /** Every declared invalid zip code is rejected, and the valid address's zip
      is accepted. */
  lemma ZipFixturesClassified()
    ensures forall k :: 0 <= k < |InvalidZipCodes| ==> !IsValidZip(InvalidZipCodes[k])
    ensures IsValidZip(ValidAddress.zip)
  {
    ZipCharacterization("ABCDE");
    assert !IsDigit("ABCDE"[0]);
    ZipCharacterization("123");
    ZipCharacterization("1234567890");
    assert "1234567890"[5] != '-';
    ZipCharacterization("10001");
  }

  /** Every declared invalid phone number, and the all-letters one, is rejected. */
  lemma InvalidPhonesRejected()
    ensures forall k :: 0 <= k < |InvalidPhoneNumbers| ==> !IsValidPhone(InvalidPhoneNumbers[k])
    ensures !IsValidPhone(InvalidPhoneAlphabets)
  {
    PhoneCharacterization("123");
    assert !IsPhoneChar("abcdefg"[0]);
    assert !IsPhoneChar("555-CALL"[4]);
    assert !IsPhoneChar(InvalidPhoneAlphabets[0]);
  }

  /** A phone written as `+1-` and three digit groups of lengths 3, 3 and 4
      passes `isValidPhone`. */
  lemma GroupedPhoneValid(a: string, e: string, n: string)
    requires |a| == 3 && |e| == 3 && |n| == 4
    requires AllDigits(a) && AllDigits(e) && AllDigits(n)
    ensures IsValidPhone("+1-" + a + "-" + e + "-" + n)
  {
    var s := "+1-" + a + "-" + e + "-" + n;
    assert s[3..6] == a && s[7..10] == e && s[11..] == n;
    NanpPhoneIsValid(s);
  }

  /** The phone fixtures the positive scenarios submit. */
  const ValidPhoneFixtures: seq<string> := [
    ValidPhone,
    ValidEmergencyContact.homePhone, ValidEmergencyContact.mobile,
    ValidEmergencyContact2.homePhone, ValidEmergencyContact2.mobile]

  /** The valid phone and the home and mobile phones of both valid emergency
      contacts are accepted. */
  lemma ValidPhonesAccepted()
    ensures forall k :: 0 <= k < |ValidPhoneFixtures| ==> IsValidPhone(ValidPhoneFixtures[k])
  {
    forall k | 0 <= k < |ValidPhoneFixtures| ensures IsValidPhone(ValidPhoneFixtures[k]) {
      var groups := [("555", "123", "4567"), ("555", "987", "6543"), ("555", "987", "6544"),
                     ("555", "111", "2222"), ("555", "111", "2223")];
      var g := groups[k];
      GroupedPhoneValid(g.0, g.1, g.2);
      assert ValidPhoneFixtures[k] == "+1-" + g.0 + "-" + g.1 + "-" + g.2;
    }
  }

  // ===========================================================================
  // Timeouts (milliseconds)
  // ===========================================================================

  const DefaultTimeout: nat := 10000
  const ShortTimeout: nat := 5000
  const LongTimeout: nat := 30000

  lemma TimeoutsOrdered()
    ensures ShortTimeout < DefaultTimeout < LongTimeout
  {
  }

  // ===========================================================================
  // Selector registry
  // ===========================================================================

  const InputLocator: string := ".oxd-input"
  const SubmitLocator: string := "button[type=\"submit\"]"

  /** `SELECTORS`: screen name -> logical field name -> locator string. */
  const Selectors: map<string, map<string, string>> := map[
    "LOGIN" := map[
      "USERNAME_INPUT" := "input[name=\"username\"]",
      "PASSWORD_INPUT" := "input[name=\"password\"]",
      "LOGIN_BUTTON" := SubmitLocator,
      "ERROR_MESSAGE" := ".oxd-alert-content-text",
      "REQUIRED_MESSAGE" := ".oxd-input-field-error-message"],
    "DASHBOARD" := map[
      "USER_DROPDOWN" := ".oxd-userdropdown-tab",
      "LOGOUT_OPTION" := "a[href=\"/web/index.php/auth/logout\"]",
      "DASHBOARD_HEADER" := ".oxd-topbar-header-breadcrumb h6"],
    "NAVIGATION" := map[
      "MY_INFO_MENU" := "a[href=\"/web/index.php/pim/viewMyDetails\"]",
      "PERSONAL_DETAILS_TAB" := "text=Personal Details",
      "CONTACT_DETAILS_TAB" := "text=Contact Details",
      "EMERGENCY_CONTACTS_TAB" := "text=Emergency Contacts"],
    "MY_INFO" := map[
      "PAGE_HEADER" := ".oxd-topbar-header-breadcrumb h6",
      "SIDEBAR_MENU" := ".orangehrm-tabs-wrapper"],
    "PERSONAL_DETAILS" := map[
      "FIRST_NAME" := "input[name=\"firstName\"]",
      "MIDDLE_NAME" := "input[name=\"middleName\"]",
      "LAST_NAME" := "input[name=\"lastName\"]",
      "EMPLOYEE_ID" := ".oxd-input--active",
      "SAVE_BUTTON" := SubmitLocator,
      "SUCCESS_MESSAGE" := ".oxd-toast-content--success",
      "ERROR_MESSAGE" := ".oxd-input-field-error-message"],
    "CONTACT_DETAILS" := map[
      "STREET1" := InputLocator,
      "STREET2" := InputLocator,
      "CITY" := InputLocator,
      "STATE" := InputLocator,
      "ZIP" := InputLocator,
      "COUNTRY" := ".oxd-select-text-input",
      "HOME_PHONE" := InputLocator,
      "MOBILE_PHONE" := InputLocator,
      "WORK_PHONE" := InputLocator,
      "WORK_EMAIL" := InputLocator,
      "OTHER_EMAIL" := InputLocator,
      "SAVE_BUTTON" := SubmitLocator,
      "SUCCESS_MESSAGE" := ".oxd-toast-content--success",
      "ERROR_MESSAGE" := ".oxd-input-field-error-message"],
    "EMERGENCY_CONTACTS" := map[
      "ADD_BUTTON" := "button:has-text(\"Add\")",
      "NAME_INPUT" := InputLocator,
      "RELATIONSHIP_INPUT" := InputLocator,
      "HOME_PHONE_INPUT" := InputLocator,
      "MOBILE_INPUT" := InputLocator,
      "WORK_PHONE_INPUT" := InputLocator,
      "SAVE_BUTTON" := SubmitLocator,
      "CANCEL_BUTTON" := "button:has-text(\"Cancel\")",
      "SUCCESS_MESSAGE" := ".oxd-toast-content--success",
      "ERROR_MESSAGE" := ".oxd-input-field-error-message",
      "CONTACT_LIST" := ".oxd-table-body",
      "CONTACT_ROW" := ".oxd-table-row",
      "CONTACT_CELL" := ".oxd-table-cell",
      "DELETE_BUTTON" := "button.oxd-icon-button:has(i.bi-trash)",
      "CONFIRM_DELETE_BUTTON" := "button.oxd-button--label-danger",
      "NO_RECORDS_FOUND" := ".oxd-table-card >> text=No Records Found"]
  ]

  predicate Registered(screen: string, field: string) {
    screen in Selectors && field in Selectors[screen]
  }

  /** Looks a logical field up in the registry; asking for an unregistered
      pair is a programming error, so it is excluded statically. */
  function Resolve(screen: string, field: string): (locator: string)
    requires Registered(screen, field)
    ensures locator in Selectors[screen].Values
  {
    Selectors[screen][field]
  }

  const ContactInputFields: seq<string> := [
    "STREET1", "STREET2", "CITY", "STATE", "ZIP",
    "HOME_PHONE", "MOBILE_PHONE", "WORK_PHONE", "WORK_EMAIL", "OTHER_EMAIL"]

  /** Every address, phone and e-mail field of the contact-details screen
      resolves to the same generic input locator, so they alias each other. */
  lemma ContactInputsAlias()
    ensures forall k :: 0 <= k < |ContactInputFields| ==>
      Registered("CONTACT_DETAILS", ContactInputFields[k]) &&
      Resolve("CONTACT_DETAILS", ContactInputFields[k]) == InputLocator
  {
  }

  /** The login button and every screen's save button share one locator. */
  lemma SubmitButtonsShared()
    ensures Resolve("LOGIN", "LOGIN_BUTTON") == SubmitLocator
    ensures Resolve("PERSONAL_DETAILS", "SAVE_BUTTON") == SubmitLocator
    ensures Resolve("CONTACT_DETAILS", "SAVE_BUTTON") == SubmitLocator
    ensures Resolve("EMERGENCY_CONTACTS", "SAVE_BUTTON") == SubmitLocator
  {
  }
}

=== FILE: testutils.dfy ===
/** The pure part of the harness's `TestUtils`: the fixture generators (with
    every `Math.random()` draw lifted to a parameter in the range the draw
    produces), the three format validators, the file-name sanitiser and the
    retry-with-exponential-backoff schedule. */
module TestUtils {
  import opened Wrappers
  import opened JsText

  // ===========================================================================
  // Random fixture generators
  // ===========================================================================

  /** The 52 characters `generateRandomString` draws from:
      `abcdefghijklmnopqrstuvwxyzABCDEFGHIJKLMNOPQRSTUVWXYZ`. */
  const Alphabet: string := Letters('a', 26) + Letters('A', 26)

  /** The `n` consecutive code points starting at `first`. */
  function Letters(first: char, n: nat): (r: string)
    requires first as int + n <= 0xD800
    ensures |r| == n
    ensures forall k :: 0 <= k < n ==> r[k] as int == first as int + k
  {
    if n == 0 then "" else Letters(first, n - 1) + [(first as int + n - 1) as char]
  }

  lemma AlphabetLetters()
    ensures |Alphabet| == 52
    ensures forall k :: 0 <= k < 26 ==> Alphabet[k] as int == 'a' as int + k
    ensures forall k :: 26 <= k < 52 ==> Alphabet[k] as int == 'A' as int + k - 26
  {
  }

  /** Each draw is `Math.floor(Math.random() * bound)`, an integer in `[0, bound)`. */
  predicate DrawsBelow(draws: seq<int>, bound: nat) {
    forall i :: 0 <= i < |draws| ==> 0 <= draws[i] < bound
  }

  predicate AllLetters(s: string) {
    forall i :: 0 <= i < |s| ==> IsLetter(s[i])
  }

  /** `generateRandomString(length)`: one draw per loop iteration, so a
      negative length yields no iteration at all. */
  function RandomString(length: int, draws: seq<int>): (r: string)
    requires |draws| == if length < 0 then 0 else length
    requires DrawsBelow(draws, |Alphabet|)
    ensures |r| == |draws|
    ensures AllLetters(r)
    decreases |draws|
  {
    AlphabetLetters();
    if |draws| == 0 then ""
    else RandomString(|draws| - 1, draws[..|draws| - 1]) + [Alphabet[draws[|draws| - 1]]]
  }

  /** Position of a letter in `Alphabet`: the draw that produces it. */
  function LetterIndex(c: char): (k: nat)
    requires IsLetter(c)
    ensures k < |Alphabet| && Alphabet[k] == c
  {
    AlphabetLetters();
    if 'a' <= c <= 'z' then (c as int) - ('a' as int) else 26 + (c as int) - ('A' as int)
  }

  function LetterIndices(s: string): (draws: seq<int>)
    requires AllLetters(s)
    ensures |draws| == |s|
    ensures DrawsBelow(draws, |Alphabet|)
  {
    seq(|s|, i requires 0 <= i < |s| => LetterIndex(s[i]))
  }

  /** The draws for a letter string are those for all but its last letter,
      then the draw for the last letter. */
  lemma LetterIndicesSnoc(s: string)
    requires AllLetters(s) && |s| > 0
    ensures LetterIndices(s)[..|s| - 1] == LetterIndices(s[..|s| - 1])
    ensures Alphabet[LetterIndices(s)[|s| - 1]] == s[|s| - 1]
  {
  }

  /** Every letter string of length `n` is a possible output of
      `generateRandomString(n)`: the generator covers its whole range. */
  lemma {:induction false} RandomStringCoversLetters(s: string)
    requires AllLetters(s)
    ensures RandomString(|s|, LetterIndices(s)) == s
    decreases |s|
  {
    if |s| > 0 {
      var t := s[..|s| - 1];
      var draws := LetterIndices(s);
      LetterIndicesSnoc(s);
      RandomStringCoversLetters(t);
      calc {
        RandomString(|s|, draws);
        RandomString(|s| - 1, draws[..|s| - 1]) + [Alphabet[draws[|s| - 1]]];
        RandomString(|t|, LetterIndices(t)) + [s[|s| - 1]];
        t + [s[|s| - 1]];
      }
      assert s == t + [s[|s| - 1]];
    }
  }

  /** `generateRandomEmail`: `test.<8 random letters>@example.com`. */
  function RandomEmail(draws: seq<int>): (r: string)
    requires |draws| == 8 && DrawsBelow(draws, |Alphabet|)
    ensures IsValidEmail(r)
    ensures |r| == 25
  {
    var local := "test." + RandomString(8, draws);
    LocalPartIsAtom(RandomString(8, draws));
    AtomLiterals();
    EmailFromParts(local, "example", "com");
    local + "@" + "example" + "." + "com"
  }

  lemma LocalPartIsAtom(letters: string)
    requires AllLetters(letters)
    ensures EmailAtom("test." + letters)
  {
    var local := "test." + letters;
    forall i | 0 <= i < |local| ensures IsEmailChar(local[i]) {
      if i >= 5 {
        assert local[i] == letters[i - 5];
      } else {
        assert local[i] in "test.";
      }
    }
  }

  lemma AtomLiterals()
    ensures EmailAtom("example") && EmailAtom("com")
  {
  }

  /** Any three `[^\s@]+` atoms joined as `a@b.c` match the email pattern. */
  lemma EmailFromParts(a: string, b: string, c: string)
    requires EmailAtom(a) && EmailAtom(b) && EmailAtom(c)
    ensures IsValidEmail(a + "@" + b + "." + c)
  {
    var s := a + "@" + b + "." + c;
    var i, j := |a|, |a| + 1 + |b|;
    assert s[..i] == a && s[i + 1..j] == b && s[j + 1..] == c;
    assert EmailSplit(s, i, j);
  }

  /** `generateRandomPhone`: `+1-<area>-<exchange>-<number>` where the three
      numbers are `draw + 100`, `draw + 100` and `draw + 1000`. */
  function RandomPhone(areaDraw: int, exchangeDraw: int, numberDraw: int): (r: string)
    requires 0 <= areaDraw < 900 && 0 <= exchangeDraw < 900 && 0 <= numberDraw < 9000
    ensures IsNanpPhone(r)
    ensures DigitCount(r) == 11
    ensures IsValidPhone(r)
  {
    var area := DecimalString(areaDraw + 100);
    var exchange := DecimalString(exchangeDraw + 100);
    var number := DecimalString(numberDraw + 1000);
    DecimalStringLength(areaDraw + 100, 3);
    DecimalStringLength(exchangeDraw + 100, 3);
    DecimalStringLength(numberDraw + 1000, 4);
    var r := "+1-" + area + "-" + exchange + "-" + number;
    assert r[3..6] == area && r[7..10] == exchange && r[11..] == number;
    NanpPhoneIsValid(r);
    r
  }

  /** The punctuated shape `+1-DDD-DDD-DDDD`. */
  predicate IsNanpPhone(s: string) {
    && |s| == 15
    && s[..3] == "+1-" && s[6] == '-' && s[10] == '-'
    && AllDigits(s[3..6]) && AllDigits(s[7..10]) && AllDigits(s[11..])
  }

  lemma NanpPhoneIsValid(s: string)
    requires IsNanpPhone(s)
    ensures DigitCount(s) == 11
    ensures IsValidPhone(s)
  {
    assert s == "+1-" + s[3..6] + "-" + s[7..10] + "-" + s[11..];
    DigitCountConcat("+1-" + s[3..6] + "-" + s[7..10] + "-", s[11..]);
    DigitCountConcat("+1-" + s[3..6] + "-" + s[7..10], "-");
    DigitCountConcat("+1-" + s[3..6] + "-", s[7..10]);
    DigitCountConcat("+1-" + s[3..6], "-");
    DigitCountConcat("+1-", s[3..6]);
    DigitCountOfDigits(s[3..6]);
    DigitCountOfDigits(s[7..10]);
    DigitCountOfDigits(s[11..]);
    assert PhoneRegex(s) by {
      forall i | 0 <= i < |s| ensures IsPhoneChar(s[i]) {
        if 3 <= i < 6 { assert s[i] == s[3..6][i - 3]; }
        else if 7 <= i < 10 { assert s[i] == s[7..10][i - 7]; }
        else if 11 <= i { assert s[i] == s[11..][i - 11]; }
      }
    }
    PhoneDigitsOnly(s);
  }

  /** `generateRandomZip`: `String(draw + 10000)`. */
  function RandomZip(draw: int): (r: string)
    requires 0 <= draw < 90000
    ensures |r| == 5 && AllDigits(r)
    ensures IsValidZip(r)
    ensures ParseDecimal(r) == draw + 10000
  {
    assert Pow10(4) == 10000 && Pow10(5) == 100000 by {
      assert Pow10(1) == 10 && Pow10(2) == 100 && Pow10(3) == 1000;
    }
    DecimalStringLength(draw + 10000, 5);
    ParseDecimalString(draw + 10000);
    var r := DecimalString(draw + 10000);
    assert ZipSplit(r, 5) by { assert r[..5] == r; }
    r
  }

  // ===========================================================================
  // Validators
  // ===========================================================================

  /** The class `[^\s@]`. */
  predicate IsEmailChar(c: char) {
    !IsSpace(c) && c != '@'
  }

  /** `[^\s@]+` */
  predicate EmailAtom(t: string) {
    |t| > 0 && forall i :: 0 <= i < |t| ==> IsEmailChar(t[i])
  }

  /** `s` matches `^[^\s@]+@[^\s@]+\.[^\s@]+$` with the `@` at `i` and the
      literal `.` at `j`. */
  predicate EmailSplit(s: string, i: int, j: int) {
    && 0 <= i < j < |s|
    && s[i] == '@' && s[j] == '.'
    && EmailAtom(s[..i]) && EmailAtom(s[i + 1..j]) && EmailAtom(s[j + 1..])
  }

  /** `isValidEmail`: the regular expression matches for some split. */
  predicate IsValidEmail(s: string): (ok: bool)
    ensures ok ==> 5 <= |s| && s[0] != '@' && s[|s| - 1] != '@'
  {
    exists i, j | 0 <= i < j < |s| :: EmailSplit(s, i, j)
  }

  /** The class `[\+\-\s\(\)]` that `isValidPhone` strips before counting. */
  predicate IsPhoneSymbol(c: char) {
    c == '+' || c == '-' || IsSpace(c) || c == '(' || c == ')'
  }

  predicate IsPhoneChar(c: char) {
    IsPhoneSymbol(c) || IsDigit(c)
  }

  /** `^[\+\-\s\(\)\d]+$` */
  predicate PhoneRegex(s: string) {
    |s| > 0 && forall i :: 0 <= i < |s| ==> IsPhoneChar(s[i])
  }

  /** `phone.replace(/[\+\-\s\(\)]/g, '')` */
  function StripPhoneSymbols(s: string): (r: string)
    ensures |r| <= |s|
    ensures forall i :: 0 <= i < |r| ==> !IsPhoneSymbol(r[i])
  {
    if |s| == 0 then ""
    else if IsPhoneSymbol(s[0]) then StripPhoneSymbols(s[1..])
    else [s[0]] + StripPhoneSymbols(s[1..])
  }

  /** `isValidPhone`: the character-class test and at least ten characters
      left once punctuation is stripped. */
  predicate IsValidPhone(s: string): (ok: bool)
    ensures ok ==> 10 <= |s|
  {
    PhoneRegex(s) && |StripPhoneSymbols(s)| >= 10
  }

  function DigitCount(s: string): (n: nat)
    ensures n <= |s|
  {
    if |s| == 0 then 0 else (if IsDigit(s[0]) then 1 else 0) + DigitCount(s[1..])
  }

  lemma {:induction false} DigitCountConcat(a: string, b: string)
    ensures DigitCount(a + b) == DigitCount(a) + DigitCount(b)
  {
    if |a| > 0 {
      assert (a + b)[1..] == a[1..] + b;
      DigitCountConcat(a[1..], b);
    } else {
      assert a + b == b;
    }
  }

  lemma {:induction false} DigitCountOfDigits(s: string)
    requires AllDigits(s)
    ensures DigitCount(s) == |s|
  {
    if |s| > 0 {
      DigitCountOfDigits(s[1..]);
    }
  }

  /** On a string of phone characters, stripping the punctuation keeps
      exactly its digits. */
  lemma {:induction false} PhoneDigitsOnly(s: string)
    requires forall i :: 0 <= i < |s| ==> IsPhoneChar(s[i])
    ensures AllDigits(StripPhoneSymbols(s))
    ensures |StripPhoneSymbols(s)| == DigitCount(s)
  {
    if |s| > 0 {
      PhoneDigitsOnly(s[1..]);
    }
  }

  /** `isValidPhone` holds exactly for non-empty strings of digits, `+`, `-`,
      whitespace and parentheses that carry at least ten digits. */
  lemma PhoneCharacterization(s: string)
    ensures IsValidPhone(s) <==>
      |s| > 0 && (forall i :: 0 <= i < |s| ==> IsPhoneChar(s[i])) && DigitCount(s) >= 10
  {
    if forall i :: 0 <= i < |s| ==> IsPhoneChar(s[i]) {
      PhoneDigitsOnly(s);
    }
  }

  /** `\d{5}` */
  predicate FiveDigits(t: string) {
    |t| == 5 && AllDigits(t)
  }

  /** `(-\d{4})?` */
  predicate PlusFour(t: string) {
    t == "" || (|t| == 5 && t[0] == '-' && AllDigits(t[1..]))
  }

  predicate ZipSplit(s: string, k: int) {
    0 <= k <= |s| && FiveDigits(s[..k]) && PlusFour(s[k..])
  }

  /** `isValidZip`: `^\d{5}(-\d{4})?$` matches for some split point. */
  predicate IsValidZip(s: string): (ok: bool)
    ensures ok ==> |s| == 5 || |s| == 10
  {
    exists k | 0 <= k <= |s| :: ZipSplit(s, k)
  }

  /** `isValidZip` accepts exactly `DDDDD` and `DDDDD-DDDD`. */
  lemma ZipCharacterization(s: string)
    ensures IsValidZip(s) <==>
      (|s| == 5 && AllDigits(s)) ||
      (|s| == 10 && AllDigits(s[..5]) && s[5] == '-' && AllDigits(s[6..]))
  {
    if |s| == 5 && AllDigits(s) {
      assert s[..5] == s;
      assert ZipSplit(s, 5);
    } else if |s| == 10 && AllDigits(s[..5]) && s[5] == '-' && AllDigits(s[6..]) {
      assert s[5..][1..] == s[6..];
      assert ZipSplit(s, 5);
    }
    if IsValidZip(s) {
      var k :| 0 <= k <= |s| && ZipSplit(s, k);
      assert k == 5;
      if |s| == 10 {
        assert s[5..][1..] == s[6..];
        assert AllDigits(s[..5]) && s[5] == '-' && AllDigits(s[6..]);
      } else {
        assert s[..5] == s;
      }
    }
  }

  // ---------------------------------------------------------------------------
  // An independent description of isValidEmail
  // ---------------------------------------------------------------------------

  function CountChar(s: string, c: char): (n: nat)
    ensures n <= |s|
    ensures n == 0 <==> c !in s
  {
    if |s| == 0 then 0 else (if s[0] == c then 1 else 0) + CountChar(s[1..], c)
  }

  lemma {:induction false} CountCharConcat(a: string, b: string, c: char)
    ensures CountChar(a + b, c) == CountChar(a, c) + CountChar(b, c)
  {
    if |a| > 0 {
      assert (a + b)[1..] == a[1..] + b;
      CountCharConcat(a[1..], b, c);
    } else {
      assert a + b == b;
    }
  }

  /** Index of the first occurrence of `c` in `s`. */
  function IndexOf(s: string, c: char): (k: nat)
    requires c in s
    ensures k < |s| && s[k] == c && c !in s[..k]
  {
    if s[0] == c then 0
    else
      var k := 1 + IndexOf(s[1..], c);
      assert s[..k] == [s[0]] + s[1..][..k - 1];
      k
  }

  predicate NoSpace(s: string) {
    forall i :: 0 <= i < |s| ==> !IsSpace(s[i])
  }

  /** The shape of an address `isValidEmail` accepts, stated without the
      regular expression: no whitespace, exactly one `@` that is not the
      first character, and a `.` strictly inside the part after it (neither
      its first nor its last character). */
  predicate EmailShape(s: string) {
    && NoSpace(s)
    && CountChar(s, '@') == 1
    && var at := IndexOf(s, '@');
    && 0 < at
    && var domain := s[at + 1..];
    && |domain| >= 3 && '.' in domain[1..|domain| - 1]
  }

  lemma AtomFacts(t: string)
    requires EmailAtom(t)
    ensures '@' !in t && NoSpace(t)
  {
    forall k | 0 <= k < |t| ensures t[k] != '@' && !IsSpace(t[k]) {
      assert IsEmailChar(t[k]);
    }
  }

  lemma {:induction false} IndexOfAfter(a: string, c: char, rest: string)
    requires c !in a
    ensures IndexOf(a + [c] + rest, c) == |a|
  {
    if |a| > 0 {
      assert (a + [c] + rest)[1..] == a[1..] + [c] + rest;
      IndexOfAfter(a[1..], c, rest);
    }
  }

  lemma EmailPartsShape(a: string, b: string, c: string)
    requires EmailAtom(a) && EmailAtom(b) && EmailAtom(c)
    ensures EmailShape(a + "@" + b + "." + c)
  {
    AtomFacts(a);
    AtomFacts(b);
    AtomFacts(c);
    var rest := b + "." + c;
    var s := a + "@" + b + "." + c;
    assert s == a + ['@'] + rest;
    assert '@' !in rest;
    CountCharConcat(a + ['@'], rest, '@');
    CountCharConcat(a, ['@'], '@');
    IndexOfAfter(a, '@', rest);
    assert s[|a| + 1..] == rest;
    assert rest[1..|rest| - 1][|b| - 1] == '.';
    assert NoSpace(s) by {
      forall k | 0 <= k < |s| ensures !IsSpace(s[k]) {
        if k < |a| { assert s[k] == a[k]; }
        else if |a| < k < |a| + 1 + |b| { assert s[k] == b[k - |a| - 1]; }
        else if k > |a| + 1 + |b| { assert s[k] == c[k - |a| - 2 - |b|]; }
      }
    }
  }

  lemma EmailSplitShape(s: string, i: int, j: int)
    requires EmailSplit(s, i, j)
    ensures EmailShape(s)
  {
    assert s == s[..i] + "@" + s[i + 1..j] + "." + s[j + 1..];
    EmailPartsShape(s[..i], s[i + 1..j], s[j + 1..]);
  }

  lemma EmailShapeSplit(s: string)
    requires EmailShape(s)
    ensures IsValidEmail(s)
  {
    var i := IndexOf(s, '@');
    var domain := s[i + 1..];
    var inner := domain[1..|domain| - 1];
    var d := IndexOf(inner, '.');
    var j := i + 2 + d;
    assert s[j] == '.';
    assert s == s[..i] + [s[i]] + s[i + 1..];
    CountCharConcat(s[..i] + [s[i]], s[i + 1..], '@');
    CountCharConcat(s[..i], [s[i]], '@');
    assert '@' !in s[i + 1..];
    forall k | 0 <= k < |s| && k != i ensures IsEmailChar(s[k]) {
      if k < i { assert s[k] == s[..i][k]; }
      else { assert s[k] == s[i + 1..][k - i - 1]; }
    }
    assert EmailSplit(s, i, j);
  }

  /** `isValidEmail` holds exactly for strings of the shape above. */
  lemma EmailCharacterization(s: string)
    ensures IsValidEmail(s) <==> EmailShape(s)
  {
    if IsValidEmail(s) {
      var i, j :| 0 <= i < j < |s| && EmailSplit(s, i, j);
      EmailSplitShape(s, i, j);
    }
    if EmailShape(s) {
      EmailShapeSplit(s);
    }
  }

  // ===========================================================================
  // File names
  // ===========================================================================

  /** The class `[a-zA-Z0-9_-]`. */
  predicate IsFilenameChar(c: char) {
    IsLetter(c) || IsDigit(c) || c == '_' || c == '-'
  }

  predicate IsSafeFilename(s: string) {
    forall i :: 0 <= i < |s| ==> IsFilenameChar(s[i])
  }

  /** `cleanTextForFilename`: every character outside `[a-zA-Z0-9_-]` becomes `_`. */
  function CleanTextForFilename(text: string): (r: string)
    ensures |r| == |text|
    ensures IsSafeFilename(r)
    ensures forall i :: 0 <= i < |text| && IsFilenameChar(text[i]) ==> r[i] == text[i]
    ensures forall i :: 0 <= i < |text| && !IsFilenameChar(text[i]) ==> r[i] == '_'
  {
    seq(|text|, i requires 0 <= i < |text| => if IsFilenameChar(text[i]) then text[i] else '_')
  }

  /** Sanitising is the identity exactly on safe names. */
  lemma CleanFixpoint(text: string)
    ensures CleanTextForFilename(text) == text <==> IsSafeFilename(text)
  {
  }

  lemma CleanIdempotent(text: string)
    ensures CleanTextForFilename(CleanTextForFilename(text)) == CleanTextForFilename(text)
  {
    CleanFixpoint(CleanTextForFilename(text));
  }

  // ===========================================================================
  // retryWithBackoff
  // ===========================================================================

  /** How a call of `retryWithBackoff` settles: with the first successful
      value, by rethrowing the last error, or (when the loop never runs) with
      `undefined`. */
  datatype RetryResult<+T, +E> = Returned(value: T) | Rethrown(error: E) | Undefined

  function Pow2(k: nat): (p: nat)
    ensures p >= 1
  {
    if k == 0 then 1 else 2 * Pow2(k - 1)
  }

  /** The back-off schedule: the delay slept after failure `k`. */
  predicate IsBackoffSchedule(delays: seq<int>, baseDelay: int) {
    forall k :: 0 <= k < |delays| ==> delays[k] == baseDelay * Pow2(k)
  }

  predicate AllFail<T, E>(outcomes: seq<Result<T, E>>, n: int)
    requires n <= |outcomes|
  {
    forall k :: 0 <= k < n ==> outcomes[k].Failure?
  }

  /** `retryWithBackoff(fn, maxRetries, baseDelay)`, where `outcomes[k]` is
      how the `k`-th call of `fn` settles. Returns the settlement, the
      number of calls made and the delays slept, in order. */
  method RetryWithBackoff<T, E>(outcomes: seq<Result<T, E>>, maxRetries: int, baseDelay: int)
    returns (result: RetryResult<T, E>, calls: nat, delays: seq<int>)
    requires maxRetries <= |outcomes|
    ensures calls <= if maxRetries < 0 then 0 else maxRetries
    ensures result.Undefined? <==> maxRetries <= 0
    ensures result.Undefined? ==> calls == 0
    ensures result.Returned? <==> exists k :: 0 <= k < maxRetries && outcomes[k].Success?
    ensures result.Returned? ==>
      calls >= 1 && outcomes[calls - 1] == Success(result.value) && AllFail(outcomes, calls - 1)
    ensures result.Rethrown? ==>
      calls == maxRetries && AllFail(outcomes, maxRetries) &&
      outcomes[maxRetries - 1] == Failure(result.error)
    ensures |delays| == if calls == 0 then 0 else calls - 1
    ensures IsBackoffSchedule(delays, baseDelay)
  {
    var i := 0;
    calls := 0;
    delays := [];
    while i < maxRetries
      invariant 0 <= i && (maxRetries > 0 ==> i < maxRetries) && (maxRetries <= 0 ==> i == 0)
      invariant i <= |outcomes|
      invariant calls == i && |delays| == i
      invariant AllFail(outcomes, i)
      invariant IsBackoffSchedule(delays, baseDelay)
    {
      calls := calls + 1;
      match outcomes[i]
      case Success(v) =>
        return Returned(v), calls, delays;
      case Failure(e) =>
        if i == maxRetries - 1 {
          return Rethrown(e), calls, delays;
        }
        delays := delays + [baseDelay * Pow2(i)];
      i := i + 1;
    }
    result := Undefined;
  }

  function Sum(xs: seq<int>): int {
    if |xs| == 0 then 0 else Sum(xs[..|xs| - 1]) + xs[|xs| - 1]
  }

  /** The total of the delays requested from `setTimeout` over `n` back-offs
      is `baseDelay * (2^n - 1)`. */
  lemma {:induction false} TotalBackoff(delays: seq<int>, baseDelay: int)
    requires IsBackoffSchedule(delays, baseDelay)
    ensures Sum(delays) == baseDelay * (Pow2(|delays|) - 1)
  {
    if |delays| > 0 {
      var n := |delays| - 1;
      TotalBackoff(delays[..n], baseDelay);
      calc {
        Sum(delays);
        baseDelay * (Pow2(n) - 1) + baseDelay * Pow2(n);
        baseDelay * (2 * Pow2(n) - 1);
      }
    }
  }

  /** The largest delay Node's `setTimeout` honours (2^31 - 1 ms). */
  const TimeoutMax: int := 0x7FFF_FFFF

  /** The time Node's `setTimeout` actually waits for a requested delay: any
      delay below 1 ms or above `TimeoutMax` is replaced by 1 ms. */
  function SleptDelay(d: int): (s: int)
    ensures 1 <= s <= TimeoutMax
    ensures 1 <= d <= TimeoutMax <==> s == d
    ensures !(1 <= d <= TimeoutMax) ==> s == 1
  {
    if 1 <= d <= TimeoutMax then d else 1
  }

  /** The times actually slept for the requested `delays`. */
  function Slept(delays: seq<int>): (slept: seq<int>)
    ensures |slept| == |delays|
    ensures forall k :: 0 <= k < |delays| ==> slept[k] == SleptDelay(delays[k])
  {
    seq(|delays|, k requires 0 <= k < |delays| => SleptDelay(delays[k]))
  }

  lemma {:induction false} Pow2Monotone(k: nat, m: nat)
    requires k <= m
    ensures Pow2(k) <= Pow2(m)
    decreases m
  {
    if k < m {
      Pow2Monotone(k, m - 1);
    }
  }

  lemma ScaleMonotone(a: int, x: int, y: int)
    requires 1 <= a && 1 <= x <= y
    ensures 1 <= a * x <= a * y
  {
  }

  /** While the last back-off fits in `setTimeout`'s range, the time slept
      over `n` back-offs is `baseDelay * (2^n - 1)`. */
  lemma TotalSleep(delays: seq<int>, baseDelay: int)
    requires IsBackoffSchedule(delays, baseDelay)
    requires 1 <= baseDelay
    requires |delays| > 0 ==> baseDelay * Pow2(|delays| - 1) <= TimeoutMax
    ensures Slept(delays) == delays
    ensures Sum(Slept(delays)) == baseDelay * (Pow2(|delays|) - 1)
  {
    forall k | 0 <= k < |delays| ensures SleptDelay(delays[k]) == delays[k] {
      Pow2Monotone(k, |delays| - 1);
      ScaleMonotone(baseDelay, Pow2(k), Pow2(|delays| - 1));
    }
    assert Slept(delays) == delays;
    TotalBackoff(delays, baseDelay);
  }

  /** With the default base delay of 1000 ms, the 23rd back-off (after
      failure 22) exceeds `setTimeout`'s range and is cut to 1 ms. */
  lemma DefaultBackoffClamped()
    ensures forall k :: 0 <= k <= 21 ==> SleptDelay(1000 * Pow2(k)) == 1000 * Pow2(k)
    ensures SleptDelay(1000 * Pow2(22)) == 1
  {
    assert Pow2(10) == 1024 by {
      assert Pow2(5) == 32 by { assert Pow2(3) == 8 by { assert Pow2(1) == 2; } }
    }
    assert Pow2(20) == 1048576 by { Pow2Sum(10, 10); }
    forall k | 0 <= k <= 21 ensures SleptDelay(1000 * Pow2(k)) == 1000 * Pow2(k) {
      Pow2Monotone(k, 21);
      ScaleMonotone(1000, Pow2(k), Pow2(21));
    }
  }

  lemma {:induction false} Pow2Sum(a: nat, b: nat)
    ensures Pow2(a + b) == Pow2(a) * Pow2(b)
    decreases b
  {
    if b > 0 {
      Pow2Sum(a, b - 1);
    }
  }

  // ===========================================================================
  // generateTestData
  // ===========================================================================

  /** The fixed relationship values one draw in `[0, 4)` chooses from. */
  const Relationships: seq<string> := ["Parent", "Sibling", "Spouse", "Friend"]

  datatype User = User(firstName: string, lastName: string, email: string)
  datatype Address = Address(street: string, city: string, state: string, zip: string)
  datatype Phones = Phones(phone: string, mobile: string)
  datatype EmergencyContact =
    EmergencyContact(name: string, relationship: string, homePhone: string, mobile: string)
  datatype GeneratedData =
    GeneratedData(user: User, address: Address, contact: Phones, emergencyContact: EmergencyContact)

  datatype PhoneDraws = PhoneDraws(area: int, exchange: int, number: int)

  /** Every `Math.random()` draw `generateTestData` makes, grouped by field. */
  datatype TestDataDraws = TestDataDraws(
    firstName: seq<int>, lastName: seq<int>, email: seq<int>,
    streetNumber: int, streetName: seq<int>, city: seq<int>, state: seq<int>, zip: int,
    phone: PhoneDraws, mobile: PhoneDraws,
    contactFirst: seq<int>, contactLast: seq<int>, relationship: int,
    homePhone: PhoneDraws, contactMobile: PhoneDraws)

  predicate PhoneDrawsInRange(p: PhoneDraws) {
    0 <= p.area < 900 && 0 <= p.exchange < 900 && 0 <= p.number < 9000
  }

  predicate LetterDraws(draws: seq<int>, n: nat) {
    |draws| == n && DrawsBelow(draws, |Alphabet|)
  }

  predicate DrawsInRange(d: TestDataDraws) {
    && LetterDraws(d.firstName, 6) && LetterDraws(d.lastName, 8) && LetterDraws(d.email, 8)
    && 0 <= d.streetNumber < 9999 && LetterDraws(d.streetName, 5)
    && LetterDraws(d.city, 7) && LetterDraws(d.state, 2) && 0 <= d.zip < 90000
    && PhoneDrawsInRange(d.phone) && PhoneDrawsInRange(d.mobile)
    && LetterDraws(d.contactFirst, 6) && LetterDraws(d.contactLast, 7)
    && 0 <= d.relationship < 4
    && PhoneDrawsInRange(d.homePhone) && PhoneDrawsInRange(d.contactMobile)
  }

  function PhoneFrom(p: PhoneDraws): (r: string)
    requires PhoneDrawsInRange(p)
    ensures IsValidPhone(r)
  {
    RandomPhone(p.area, p.exchange, p.number)
  }

  /** `<number> <5 letters> Street`, the number between 1 and 9999 written
      without leading zeros. */
  predicate IsStreet(s: string) {
    && |s| >= 14
    && var k := |s| - 13;
    && AllDigits(s[..k]) && (k > 1 ==> s[0] != '0') && 1 <= ParseDecimal(s[..k]) <= 9999
    && s[k] == ' ' && AllLetters(s[k + 1..k + 6]) && s[k + 6..] == " Street"
  }

  lemma StreetFromParts(n: nat, letters: string)
    requires 1 <= n <= 9999 && |letters| == 5 && AllLetters(letters)
    ensures IsStreet(DecimalString(n) + " " + letters + " Street")
  {
    var digits := DecimalString(n);
    var s := digits + " " + letters + " Street";
    var k := |digits|;
    assert |s| == k + 13;
    assert s[..k] == digits;
    assert s[k + 1..k + 6] == letters;
    assert s[k + 6..] == " Street";
    ParseDecimalString(n);
  }

  lemma ContactNameFromParts(first: string, last: string)
    requires |first| == 6 && |last| == 7 && AllLetters(first) && AllLetters(last)
    ensures IsContactName(first + " " + last)
  {
    var s := first + " " + last;
    assert s[..6] == first && s[7..] == last;
  }

  /** `<6 letters> <7 letters>` */
  predicate IsContactName(s: string) {
    |s| == 14 && AllLetters(s[..6]) && s[6] == ' ' && AllLetters(s[7..])
  }

  /** What every fixture must satisfy for a scenario never to fail on its own
      input: each value passes the validator used against it. */
  predicate FixturesValid(t: GeneratedData) {
    && AllLetters(t.user.firstName) && |t.user.firstName| == 6
    && AllLetters(t.user.lastName) && |t.user.lastName| == 8
    && IsValidEmail(t.user.email)
    && IsStreet(t.address.street)
    && AllLetters(t.address.city) && |t.address.city| == 7
    && |t.address.state| == 2 && (forall i :: 0 <= i < 2 ==> 'A' <= t.address.state[i] <= 'Z')
    && IsValidZip(t.address.zip)
    && IsValidPhone(t.contact.phone) && IsValidPhone(t.contact.mobile)
    && IsContactName(t.emergencyContact.name)
    && t.emergencyContact.relationship in Relationships
    && IsValidPhone(t.emergencyContact.homePhone) && IsValidPhone(t.emergencyContact.mobile)
  }

  /** `generateTestData` */
  function GenerateTestData(d: TestDataDraws): (t: GeneratedData)
    requires DrawsInRange(d)
    ensures FixturesValid(t)
  {
    var state := RandomString(2, d.state);
    StreetFromParts(d.streetNumber + 1, RandomString(5, d.streetName));
    ContactNameFromParts(RandomString(6, d.contactFirst), RandomString(7, d.contactLast));
    GeneratedData(
      User(RandomString(6, d.firstName), RandomString(8, d.lastName), RandomEmail(d.email)),
      Address(
        DecimalString(d.streetNumber + 1) + " " + RandomString(5, d.streetName) + " Street",
        RandomString(7, d.city),
        AsciiUpper(state),
        RandomZip(d.zip)),
      Phones(PhoneFrom(d.phone), PhoneFrom(d.mobile)),
      EmergencyContact(
        RandomString(6, d.contactFirst) + " " + RandomString(7, d.contactLast),
        Relationships[d.relationship],
        PhoneFrom(d.homePhone),
        PhoneFrom(d.contactMobile)))
  }
}

=== FILE: wrappers.dfy ===
/** Failure-compatible wrappers used across the model: `Option` stands for a
    JavaScript value that may be `undefined`/`null`, `Result` for an async
    operation that either resolves with a value or rejects with an error. */
module Wrappers {

  datatype Option<+T> = None | Some(value: T)

  datatype Result<+R, +E> = Success(value: R) | Failure(error: E) {

    predicate IsFailure() {
      Failure?
    }

    function PropagateFailure<U>(): Result<U, E>
      requires Failure?
    {
      Failure(error)
    }

    function Extract(): R
      requires Success?
    {
      value
    }
  }
}
